=== FILE: README.md ===
# shellax: the text-level core of an interactive Unix shell

This project models, in Dafny, the deterministic string and sequence logic of
the `shellax` shell (`shellax-skeleton.c`), and proves properties of it:

- **`parse_command`**: one input line becomes a chain of `command_t` stages.
  The line is trimmed of spaces and tabs. A trailing `&` or `?` sets the
  background or auto-complete flag. The line is split strtok-style, and each
  token after a stage's name becomes one of these:
  - a redirect (`<`, `>`, `>>`);
  - a skipped standalone `&`;
  - a standalone `|` that hands the rest of the line to the next stage;
  - a possibly quote-stripped argument.
- **The in-process `uniq` filters**:
  - `ourUniq` keeps the first occurrence of each line, in input order.
  - `ourUniq2` also prints each line's occurrence count.
  - `pipeCommand` picks between them by the stage's argument count.
- **The exec argument vector**: the name, the arguments and a NULL.
- **The PATH walk**: the first `:`-separated directory listing the name gives
  `dir/name`.
- **The decision `process_command` takes**:
  - no-op, `exit` or `cd` in the shell itself;
  - otherwise a forked child that runs an extension built-in, the pipeline or
    the resolved program;
  - the parent waits unless the command runs in the background.

Modules, one per concern of the source:

| module | file | models |
|---|---|---|
| `Wrappers` | wrappers.dfy | `Option`, for values that may be NULL |
| `Strtok` | strtok.dfy | C `strtok`: runs of delimiters collapse, no empty tokens |
| `Commands` | commands.dfy | `struct command_t`, its redirect slots and its `next` chain |
| `Parser` | parser.dfy | `parse_command` |
| `Uniq` | uniq.dfy | `ourUniq`, `ourUniq2`, the filter choice in `pipeCommand` |
| `Exec` | exec.dfy | the argv build and PATH walk of `process_command` / `runCommand` |
| `Dispatch` | dispatch.dfy | `process_command` |

## Where the code differs from what a shell user would expect (the model follows the code)

- **Quoted phrases.** A quoted phrase is not one argument. The line is split at
  blanks before quotes are looked at, so `cmd a "b c"` gives the arguments
  `a`, `"b` and `c"`, each keeping its quote character (`Parser.NoArgumentHasBlank`).
- **Trailing marks.** The trailing `&` or `?` is not removed from the line. It
  stays part of the last token, so `ls&` is a command named `ls&`
  (`Parser.BackgroundMarkStaysInName`).
- **Flags in a pipeline.** A chain shares one pair of flags. The nested parse
  of the text after a `|` trims the same line end. When the line ends with `&`
  or `?`, every stage of the chain therefore has that flag set. Otherwise a
  stage after a `|` keeps whatever `malloc` left in its flags, because the
  parse only ever sets them to true. The model gives every stage the head's
  flags (`Parser.LineFlags`; see the `malloc` line under "Left out").
- **"command not found".** The report is printed by the forked child, which
  returns `UNKNOWN` inside the child. The parent returns `SUCCESS` for every
  forked command (`Dispatch.ParentStatus`, `Dispatch.ExternalCommand`).
- **Pipeline stages are always launched.** A `uniq` stage is launched as well
  as filtered. `pipeCommand` runs the in-process filter for it and then hands
  it to `runCommand` like every other stage. So in `ls | uniq` the `uniq` that
  PATH resolves also runs, after the built-in filter has printed. Each stage
  of the model's pipeline records both its filter and the program PATH
  resolves its name to (`Dispatch.PipelineRuns`, `Dispatch.PipelineChosen`).

## Model

| member | source | states |
|---|---|---|
| Strtok.Split | shellax-skeleton.c:118-140 | every token strtok hands out is non-empty and free of delimiters |
| Strtok.SplitEmptyIff | shellax-skeleton.c:118-123 | strtok finds no token exactly when the text holds only delimiters |
| Strtok.SplitConcat | shellax-skeleton.c:118-140 | a delimiter cuts the text: the tokens of the whole are the tokens before it followed by those after it |
| Strtok.SplitJoin | shellax-skeleton.c:118-140 | splitting undoes joining for non-empty, delimiter-free tokens |
| Strtok.SplitIgnoresOuterDelims | shellax-skeleton.c:104-118 | delimiters at either end of a text do not change its tokens |
| Strtok.SplitSingle | shellax-skeleton.c:118-128 | a non-empty delimiter-free text is exactly one token |
| Parser.TrimLeft | shellax-skeleton.c:105-109 | the result is a suffix of the input, everything cut off is a blank, and it does not start with a blank |
| Parser.TrimRight | shellax-skeleton.c:110-111 | the result is a prefix of the input, everything cut off is a blank, and it does not end with a blank |
| Parser.Trim | shellax-skeleton.c:104-111 | the trimmed line neither starts nor ends with a blank |
| Parser.TrimShape | shellax-skeleton.c:104-111 | the trimmed line is a contiguous piece of the raw line with only blanks before and after it |
| Parser.TrimKeepsWords | shellax-skeleton.c:104-118 | trimming does not change the tokens of a line |
| Parser.TrimmedEndsWith | shellax-skeleton.c:110-116 | the trimmed line ends with a non-blank mark exactly when that mark is the last non-blank character of the raw line |
| Parser.Unquote | shellax-skeleton.c:200-206 | a token changes exactly when it is longer than two characters and wrapped in a matching pair of `"` or `'`, and then exactly those two characters go |
| Parser.Classify | shellax-skeleton.c:157-206 | the meaning of a token: `\|` is a bar, `&` is skipped, a token starting with `<` or `>` is a redirect whose marker (`<`, `>`, `>>`) followed by the target is the token, any other token is an unquoted argument |
| Parser.QuoteExamples | shellax-skeleton.c:200-206 | `"hi"` and `'x'` lose their quotes; `''`, `"b` and `'d"` are kept verbatim |
| Parser.RedirectExamples | shellax-skeleton.c:178-197 | `<in`, `>out`, `>>log` fill the input, output and append slots with the text after the marker; `>>` alone gives an empty append target |
| Parser.FirstBar | shellax-skeleton.c:157-171 | the position of the first standalone bar: no bar before it, a bar at it unless it is the end |
| Parser.LastTarget | shellax-skeleton.c:192-196 | the target of the last redirect token for a slot, and none exactly when the stage has no redirect token for it |
| Parser.ParseTokens | shellax-skeleton.c:118-213 | the first token is the name (empty without tokens) and the flags are those read from the line end |
| Parser.ParseCommand | shellax-skeleton.c:100-215 | the name of a parsed line is its first blank-separated token, or empty for a blank line |
| Parser.BlankLine | shellax-skeleton.c:104-128 | a line of blanks parses to an empty name with no arguments, redirects, flags or successor |
| Parser.LineTokens | shellax-skeleton.c:104-118 | a line parses as its tokens with the flags read from the last character of the trimmed line |
| Parser.TrimmedLineFlags | shellax-skeleton.c:113-116 | every stage is background exactly when the trimmed line ends with `&`, and auto-complete exactly when it ends with `?` |
| Parser.LineFlags | shellax-skeleton.c:110-116 | every stage is background exactly when the last non-blank character of the raw line is `&`, auto-complete exactly when it is `?`, never both |
| Parser.BackgroundMarkStaysInName | shellax-skeleton.c:113-128 | `ls&` parses to a background command named `ls&` with no arguments and no successor |
| Parser.ParseOfJoinedWords | shellax-skeleton.c:104-140 | words joined by single spaces come back as those words, with the flags read from the last word's last character |
| Parser.Scan | shellax-skeleton.c:135-212 | the token loop, one token at a time through `Parser.Step`, never changes the stage's name or its background and auto-complete flags, and a non-bar token never sets `next` |
| Parser.ScanArgs | shellax-skeleton.c:135-212 | the token loop appends the stage's argument tokens, in order and unquoted, and counts each one |
| Parser.ScanRedirects | shellax-skeleton.c:177-197 | after the token loop each slot holds the target of the stage's last redirect for it, or what it held before |
| Parser.ScanNext | shellax-skeleton.c:157-171 | the token loop attaches the tokens after the first bar, parsed with the same flags, as the successor |
| Parser.StageArgs | shellax-skeleton.c:199-212 | a stage's arguments are its own tokens minus bars, `&` and redirects, unquoted, in order, and `arg_count` is their number |
| Parser.StageRedirects | shellax-skeleton.c:178-197 | each redirect slot of a stage is the last target given for it in that stage; a later redirect replaces an earlier one |
| Parser.StageNext | shellax-skeleton.c:157-171 | a stage has a successor exactly when a standalone bar follows its name, and the successor parses the tokens after the first one |
| Parser.ParsedValid | shellax-skeleton.c:207-212 | in every stage of a parsed chain `arg_count` equals the number of stored arguments |
| Parser.FlagsEveryStage | shellax-skeleton.c:113-169 | every stage of a chain carries the flags read from the end of the whole line |
| Parser.BarSplit | shellax-skeleton.c:157-171 | the tokens up to the first bar hold no bar, and the line is those tokens, the bar and the rest |
| Parser.ChainLength | shellax-skeleton.c:157-171 | a line with k standalone bars, none first, none last and no two adjacent, parses into k + 1 stages |
| Parser.PipelineStages | shellax-skeleton.c:157-171 | segments joined by bars parse into exactly the stages each segment parses into on its own, left to right |
| Parser.PipelineStep | shellax-skeleton.c:157-171 | a stage, a bar and a parsable rest give that stage followed by the stages of the rest |
| Parser.BarJoin | shellax-skeleton.c:157-171 | a stage followed by a bar keeps its own tokens and hands exactly the rest to its successor |
| Parser.SameStage | shellax-skeleton.c:135-212 | a stage depends only on its name and own tokens, not on what follows its bar |
| Parser.StagesBlankFree | shellax-skeleton.c:138-210 | blank-free tokens give stages whose arguments are all non-empty and blank-free |
| Parser.NoArgumentHasBlank | shellax-skeleton.c:138-206 | no argument of any stage contains a blank, so a quoted phrase stays split |
| Uniq.Dedup | shellax-skeleton.c:692-708 | the kept lines have no duplicates and are exactly the lines of the input |
| Uniq.DedupOrder | shellax-skeleton.c:692-708 | the kept lines are in order of first occurrence in the input |
| Uniq.OrderDetermines | shellax-skeleton.c:692-708 | two duplicate-free orderings of the same lines by first occurrence are equal |
| Uniq.DedupCharacterised | shellax-skeleton.c:678-714 | a list is the filter's output exactly when it has no duplicates, holds exactly the input lines and follows first-occurrence order |
| Uniq.DedupOfNoDup | shellax-skeleton.c:692-708 | input without duplicates passes unchanged |
| Uniq.DedupIdempotent | shellax-skeleton.c:678-714 | filtering twice keeps what filtering once keeps |
| Uniq.DedupPrefix | shellax-skeleton.c:692-708 | the rows kept after a prefix of the input are a prefix of the final rows |
| Uniq.TallySum | shellax-skeleton.c:730-748 | the printed counts add up to the number of non-empty input lines |
| Uniq.TallyPositive | shellax-skeleton.c:740-745 | every printed count is at least one |
| Uniq.RenderJoin | shellax-skeleton.c:710-713 | the printed text is the kept lines joined by line breaks, with a final line break |
| Uniq.LinesOfRender | shellax-skeleton.c:710-713 | reading printed lines back at line breaks gives the lines again |
| Uniq.UniqTextIdempotent | shellax-skeleton.c:678-714 | running the plain filter on its own output prints the same text |
| Uniq.Decimal | shellax-skeleton.c:752 | `%d` of a count is a non-empty run of digits without a leading zero |
| Uniq.DecimalRoundTrip | shellax-skeleton.c:752 | the printed digits of a count read back as the count |
| Uniq.EntryLineSplits | shellax-skeleton.c:752 | a counted line splits at its first blank into the count and the line |
| Uniq.Seen | shellax-skeleton.c:694-700 | the inner loop finds the token exactly when a kept row equals it |
| Uniq.PrintRows | shellax-skeleton.c:710-713 | the final loop prints each row followed by a line break |
| Uniq.OurUniq | shellax-skeleton.c:678-714 | the filter prints exactly the first occurrences of the input lines, in order, and its output reads back as those lines |
| Uniq.CountRow | shellax-skeleton.c:732-739 | the inner loop finds the token exactly when a row equals it, and raises by one exactly the counts of rows equal to it |
| Uniq.PrintCounts | shellax-skeleton.c:750-753 | the final loop prints `<count> <line>` per row, in order |
| Uniq.TableStep | shellax-skeleton.c:730-748 | one more input line keeps the table equal to the first-occurrence rows with their occurrence counts |
| Uniq.TableTally | shellax-skeleton.c:750-753 | a finished table is the tally of the input |
| Uniq.OurUniq2 | shellax-skeleton.c:716-754 | the counting filter prints every distinct line once, in first-occurrence order, with its occurrence count |
| Uniq.FilterOf | shellax-skeleton.c:585-596 | a stage runs a filter exactly when it is named `uniq`, the counting one exactly when it has arguments |
| Uniq.FiltersAgree | shellax-skeleton.c:678-754 | both filters print the same lines in the same order; the counted one prefixes each with its count and a blank |
| Uniq.ExampleDedup | shellax-skeleton.c:692-708 | the lines `a`, `a`, `b` keep `a`, `b` |
| Uniq.ExampleCounts | shellax-skeleton.c:730-748 | the lines `a`, `a`, `b` are counted two and one |
| Exec.ReadArgv | shellax-skeleton.c:429-432 | `execv` reads the strings before the first NULL |
| Exec.BuildArgv | shellax-skeleton.c:422-432 | the vector has `arg_count + 2` cells: the name, the arguments in order, then NULL, and it reads back as the name followed by the arguments |
| Exec.ReadArgvOf | shellax-skeleton.c:429-432 | a name, the arguments and a NULL read back as the name followed by the arguments |
| Exec.FindIn | shellax-skeleton.c:453-485 | the walk finds nothing exactly when no directory lists the name |
| Exec.FindInFirst | shellax-skeleton.c:453-485 | the path found is that of the first directory, in order, listing the name |
| Exec.FindInPath | shellax-skeleton.c:438-485 | the nested loops return the first listing directory plus `/` plus the name, and nothing exactly when no directory of PATH lists it |
| Exec.EmptySegmentSkipped | shellax-skeleton.c:444-447 | an empty PATH segment is skipped: `a::b` searches what `a:b` searches |
| Exec.FirstDirectoryWins | shellax-skeleton.c:463-474 | the first PATH directory wins when it lists the name |
| Exec.UnlistedDirectorySkipped | shellax-skeleton.c:455-463 | a directory that cannot be opened or lacks the name is passed over |
| Dispatch.Code | shellax-skeleton.c:17-21 | the return codes are 0 for `SUCCESS`, 1 for `EXIT` and 2 for `UNKNOWN` |
| Dispatch.PipelineRuns | shellax-skeleton.c:585-621 | for each stage, in order: the filter chosen by the stage's name and argument count, then the program PATH resolves the stage's name to, with the name before the arguments |
| Dispatch.ProcessCommand | shellax-skeleton.c:349-367 | the shell finishes a command itself exactly for the empty name, `exit` and `cd` with an argument, and changes directory exactly for `cd`, to its first argument; a forked command is waited for exactly when it is not in the background |
| Dispatch.EmptyNameNoOp | shellax-skeleton.c:352-353 | the empty name returns `SUCCESS` and prints nothing |
| Dispatch.OnlyExitStops | shellax-skeleton.c:335-356 | the shell's loop receives `EXIT` exactly for `exit` |
| Dispatch.CdAlwaysSucceeds | shellax-skeleton.c:358-366 | `cd` with an argument changes to its first argument and returns `SUCCESS`; it prints `-shellax: cd: <error>` exactly when `chdir` fails for that directory |
| Dispatch.CdIgnoresLaterArguments | shellax-skeleton.c:360-362 | arguments of `cd` after the first change nothing |
| Dispatch.CdWithoutArgumentLaunches | shellax-skeleton.c:358-367 | `cd` without an argument is looked up in PATH like any program |
| Dispatch.ExtensionsFirst | shellax-skeleton.c:405-415 | `chatroom` and `wiseman` run before any pipeline or PATH handling, whatever the successor and the directories |
| Dispatch.PipelineChosen | shellax-skeleton.c:417-420 | a command with a successor runs the pipeline; each stage counts exactly when it is `uniq` with arguments and filters plainly exactly when it is `uniq` without, and every stage is then launched as PATH resolves its name |
| Dispatch.ChildOf | shellax-skeleton.c:405-486 | the forked child runs `chatroom` or `wiseman` exactly for those names, otherwise the pipeline exactly when a successor exists, otherwise the program PATH resolves with its name before its arguments, or, exactly when PATH resolves nothing, the `-shellax: <name>: command not found` report of lines 576-577 |
| Dispatch.ExternalCommand | shellax-skeleton.c:438-486 | a plain command launches the resolved program with its name before its arguments, and exactly when no PATH directory lists it the child falls out of the walk to lines 576-577, prints `-shellax: <name>: command not found` and returns `UNKNOWN` |
| Dispatch.BlankLineIsNoOp | shellax-skeleton.c:352-353 | a line of blanks does nothing and returns `SUCCESS` |
| Dispatch.BackgroundNotAwaited | shellax-skeleton.c:488-493 | a forked background command is not waited for |
| Dispatch.TrailingAmpersandRunsInBackground | shellax-skeleton.c:488-493 | `ls&` forks without waiting, and the child looks up `ls&`, not `ls` |

## Left out

- Terminal I/O is not modelled: `prompt`, `show_prompt`, raw mode, echo and history. The model starts from the line `prompt` returns.
- Process plumbing is not modelled: `fork`, `pipe`, `dup`/`dup2`, `wait` and `execv`. A forked child is described by what it would run (`Dispatch.ChildRun`), not run.
- The `dup2` inside the directory loop of the PATH walk is left out. It only rewires the child's standard output when an output redirect is set.
- Redirect file handling is not modelled (shellax-skeleton.c:496-569): opening, reading and writing the redirect files after the child ends. The model only records which file each slot names.
- `wiseman` and `chatroom` are named as the child's choice (`Dispatch.Extension`) and not modelled further. They shell out to crontab, or use FIFOs and an endless loop.
- `free_command` and `print_command` are left out: memory release and debugging output.
- The fixed buffers are stated as preconditions, not modelled as overflow:
  - `temp_buf[1024]` through `Parser.Parsable`;
  - `pathOfCommand[50]` through `Exec.PathFits`;
  - `visited[100][100]` through `Uniq.UniqInput`.
- Inputs with undefined behaviour are excluded by preconditions:
  - a line whose last token is a standalone `|` (`Parser.Parsable`). The source writes a blank over the byte after the `|`. When the `|` ends the raw line, the nested parse reads past it, which is undefined. When blanks followed the `|`, the nested parse reads the empty text and gives a successor with an empty name, which is defined. The model excludes this defined case too;
  - `uniq` input with no non-empty line, where the first `strcpy` reads NULL (`Uniq.UniqInput`).
- The 4096-byte pipe read in `pipeCommand` is not modelled. The filters take the text read as a string, with no length cap and no missing terminator.
- `getenv("PATH")` returning NULL is not modelled. The PATH value is a string parameter.
- Dispatch.ProcessCommand: the child of a pipeline is modelled as running the pipeline. In the source, when `pipeCommand` returns without an `execv` succeeding, the child falls through to the argv build and PATH walk of the first stage. The model does not follow that path.
- Dispatch.ChildOf: a child that reports "command not found" returns `UNKNOWN` into a second copy of the shell's loop. The model stops at that return code (`Dispatch.ChildStatus`).
- Dispatch.ChildOf: `wiseman` reads `args[0]` even when it has no arguments. The model does not look at the argument the extension receives.
- In the source the unused fields of a stage created after a `|` are whatever `malloc` returned. This includes its `next`, which `pipeCommand` reads for the last stage. The model gives them the values the stage's own parse sets (`None` in every redirect slot the stage's tokens never set, and `next` as `None`) and the flags read from the line end. The argument count is not one of these fields: the nested parse always sets it, like the name and the arguments (`Parser.ParsedValid`).
- Strings are modelled as sequences of characters, but the C buffers count bytes. The limits in `Parser.Parsable`, `Exec.PathFits` and `Uniq.UniqInput` are exact only for ASCII text; a non-ASCII character takes more than one byte in UTF-8. The model also assumes that no NUL character occurs inside the line, PATH or the text read from the pipe. In C a NUL ends the string at `strlen` and `strtok`.
- Dispatch.ProcessCommand: `chdir` is modelled by the directories it fails for (`Dispatch.Env`) and the error text `strerror` gives. The change of the working directory itself is not followed further.
- Uniq.OurUniq: the source writes into the fixed `visited` table, and the model uses a growing sequence. The table limits are checked against the inputs `Uniq.UniqInput` admits (asserted inside the loop), not modelled as writes past the end.

=== FILE: commands.dfy ===
/** One pipeline stage of the shell (`struct command_t`) and the chain it heads. */
module Commands {
  import opened Wrappers

  /** The three redirect slots: `redirects[0]` input from a file, `redirects[1]`
      output truncating a file, `redirects[2]` output appending to a file. */
  datatype Slot = In | Out | Append

  /** The three redirect targets; `None` is a NULL slot. */
  datatype Redirects = Redirects(input: Option<string>, output: Option<string>, append: Option<string>) {

    function Get(s: Slot): Option<string> {
      match s
      case In => input
      case Out => output
      case Append => append
    }

    /** The slot `s` set to `v`, the other two slots kept. */
    function Set(s: Slot, v: string): (r: Redirects)
      ensures r.Get(s) == Some(v)
      ensures forall o: Slot :: o != s ==> r.Get(o) == Get(o)
    {
      match s
      case In => this.(input := Some(v))
      case Out => this.(output := Some(v))
      case Append => this.(append := Some(v))
    }
  }

  const NoRedirects: Redirects := Redirects(None, None, None)

  /** A parsed stage. `argCount` is the C field `arg_count`, kept beside the
      argument list as the source keeps it; `next` is the stage piped into. */
  datatype Command = Command(
    name: string,
    background: bool,
    autoComplete: bool,
    argCount: nat,
    args: seq<string>,
    redirects: Redirects,
    next: Option<Command>)

  /** `arg_count` matches the stored arguments in every stage of the chain. */
  predicate Valid(c: Command)
    decreases c
  {
    && c.argCount == |c.args|
    && (c.next.Some? ==> Valid(c.next.value))
  }

  /** The stages of the chain headed by `c`, first to last, each cut off from its successor. */
  function Stages(c: Command): (r: seq<Command>)
    ensures |r| >= 1 && r[0] == c.(next := None)
    decreases c
  {
    [c.(next := None)] + (match c.next case None => [] case Some(n) => Stages(n))
  }
}

=== FILE: dispatch.dfy ===
/**
  The decision `process_command` takes for a parsed command. Three names are
  handled by the shell itself without a child: the empty name does nothing,
  `exit` ends the shell and `cd` with an argument changes directory. Every
  other command forks a child; the child runs one of the extension built-ins,
  or the pipeline when the command has a successor, or else the program PATH
  resolves the name to, and the shell waits for it unless the command runs
  in the background.
*/
module Dispatch {
  import opened Wrappers
  import opened Strtok
  import opened Commands
  import opened Parser
  import opened Uniq
  import opened Exec

  /** The return codes of `process_command`. */
  datatype Status = Success | Exit | Unknown

  /** The C value of each return code. */
  function Code(s: Status): (n: int)
    ensures 0 <= n <= 2
    ensures n == 0 <==> s == Success
    ensures n == 1 <==> s == Exit
  {
    match s
    case Success => 0
    case Exit => 1
    case Unknown => 2
  }

  const SysName: string := "shellax"

  /** The built-ins run in the child process. */
  datatype Extension = Chatroom | Wiseman

  /** What `pipeCommand` does for one stage of a chain: it runs the
      in-process filter, if any, and then always hands the stage to
      `runCommand`, which `execv`s the program PATH resolves the stage's name
      to, if any, with `argv` as its argument strings. */
  datatype StageRun = StageRun(filter: Option<Variant>, program: Option<string>, argv: seq<string>)

  /** What the forked child does. */
  datatype ChildRun =
    | RunExtension(ext: Extension)
      /** `pipeCommand` on the chain: what each stage runs, in order. */
    | RunPipeline(stages: seq<StageRun>)
      /** `execv` of the resolved program with the argument strings it reads. */
    | Launch(path: string, argv: seq<string>)
      /** The walk found nothing: the report is printed and the child returns `UNKNOWN`. */
    | NotFound(report: string)

  /** One call of `process_command`: either the shell finishes the command
      itself, changing to the directory `chdir` if any and printing `report`
      if any, or it forks a child and waits for it when `waits` holds. */
  datatype Turn =
    | Finish(status: Status, chdir: Option<string>, report: Option<string>)
    | Fork(child: ChildRun, waits: bool)

  /** What the command cannot see but depends on: the PATH value, the
      directories, and the directories `chdir` fails for, each with the
      error text `strerror` gives for it. */
  datatype Env = Env(pathVar: string, fs: Directories, chdirFails: map<string, string>)

  /** The names the shell finishes without forking. */
  predicate InShell(c: Command) {
    c.name == "" || c.name == "exit" || (c.name == "cd" && c.argCount > 0)
  }

  /** The command reaches the PATH walk in the child. */
  predicate Launches(c: Command) {
    !InShell(c) && c.name != "chatroom" && c.name != "wiseman" && c.next.None?
  }

  /** The command's child runs the pipeline. */
  predicate Pipes(c: Command) {
    !InShell(c) && c.name != "chatroom" && c.name != "wiseman" && c.next.Some?
  }

  /** Every path the child may build fits the 50-byte `pathOfCommand` buffer:
      the command's own, or that of each pipeline stage. */
  predicate PathsFit(c: Command, env: Env) {
    && (Launches(c) ==> PathFits(env.pathVar, env.fs, c.name))
    && (Pipes(c) ==> forall st :: st in Stages(c) ==> PathFits(env.pathVar, env.fs, st.name))
  }

  /** What every stage of the chain headed by `c` runs, in order. */
  function PipelineRuns(c: Command, env: Env): (r: seq<StageRun>)
    ensures |r| == |Stages(c)|
    ensures forall i :: 0 <= i < |r| ==>
              && r[i].filter == FilterOf(Stages(c)[i])
              && r[i].program == Resolve(env.pathVar, env.fs, Stages(c)[i].name)
              && r[i].argv == [Stages(c)[i].name] + Stages(c)[i].args
    decreases c
  {
    [StageRun(FilterOf(c), Resolve(env.pathVar, env.fs, c.name), [c.name] + c.args)]
      + (match c.next case None => [] case Some(n) => PipelineRuns(n, env))
  }

  /** What the forked child runs: an extension by name first, then the
      pipeline when a successor exists, and otherwise the PATH walk, which
      launches what it finds or reports the name as not found. */
  function ChildOf(c: Command, env: Env): (r: ChildRun)
    requires !InShell(c) && c.argCount == |c.args|
    requires PathsFit(c, env)
    ensures r.RunExtension? <==> c.name == "chatroom" || c.name == "wiseman"
    ensures r.RunExtension? ==> (r.ext == Chatroom <==> c.name == "chatroom")
    ensures r.RunPipeline? <==> Pipes(c)
    ensures r.RunPipeline? ==> r.stages == PipelineRuns(c, env)
    ensures r.Launch? <==> Launches(c) && Resolve(env.pathVar, env.fs, c.name).Some?
    ensures r.Launch? ==> Some(r.path) == Resolve(env.pathVar, env.fs, c.name) && r.argv == [c.name] + c.args
    ensures r.NotFound? <==> Launches(c) && Resolve(env.pathVar, env.fs, c.name).None?
    ensures r.NotFound? ==> r.report == "-shellax: " + c.name + ": command not found\n"
  {
    assert "-" + SysName + ": " == "-shellax: ";
    if c.name == "chatroom" then RunExtension(Chatroom)
    else if c.name == "wiseman" then RunExtension(Wiseman)
    else if c.next.Some? then RunPipeline(PipelineRuns(c, env))
    else match Resolve(env.pathVar, env.fs, c.name)
      case Some(p) => Launch(p, [c.name] + c.args)
      case None => NotFound("-" + SysName + ": " + c.name + ": command not found\n")
  }

  /** `process_command`. */
  function ProcessCommand(c: Command, env: Env): (t: Turn)
    requires c.argCount == |c.args|
    requires PathsFit(c, env)
    ensures t.Finish? <==> InShell(c)
    ensures t.Finish? ==> (t.chdir.Some? <==> c.name == "cd")
    ensures t.Finish? && t.chdir.Some? ==> t.chdir == Some(c.args[0])
    ensures t.Fork? ==> (t.waits <==> !c.background)
  {
    if c.name == "" then Finish(Success, None, None)
    else if c.name == "exit" then Finish(Exit, None, None)
    else if c.name == "cd" && c.argCount > 0 then
      var dir := c.args[0];
      Finish(Success, Some(dir), if dir in env.chdirFails then Some("-" + SysName + ": cd: " + env.chdirFails[dir] + "\n") else None)
    else Fork(ChildOf(c, env), !c.background)
  }

  /** The code the shell's loop receives: a forked command reports `SUCCESS`
      in the parent, whatever the child does. */
  function ParentStatus(t: Turn): Status {
    match t
    case Finish(s, _, _) => s
    case Fork(_, _) => Success
  }

  /** The code the child returns when it comes back from `process_command`. */
  function ChildStatus(r: ChildRun): Option<Status> {
    match r
    case NotFound(_) => Some(Unknown)
    case _ => None
  }

  /** The empty name is a no-op: `SUCCESS`, nothing printed, no child. */
  lemma EmptyNameNoOp(c: Command, env: Env)
    requires c.argCount == |c.args| && c.name == ""
    ensures ProcessCommand(c, env) == Finish(Success, None, None)
  {
  }

  /** The shell's loop stops exactly for `exit`. */
  lemma OnlyExitStops(c: Command, env: Env)
    requires c.argCount == |c.args|
    requires PathsFit(c, env)
    ensures ParentStatus(ProcessCommand(c, env)) == Exit <==> c.name == "exit"
    ensures c.name == "exit" ==> ProcessCommand(c, env) == Finish(Exit, None, None)
  {
  }

  /** `cd` with an argument changes to its first argument and succeeds
      whether or not `chdir` fails; it prints the error exactly when it fails. */
  lemma CdAlwaysSucceeds(c: Command, env: Env)
    requires c.argCount == |c.args| && c.name == "cd" && c.argCount > 0
    ensures var t := ProcessCommand(c, env);
            && t.Finish? && t.status == Success && t.chdir == Some(c.args[0])
            && (t.report.Some? <==> c.args[0] in env.chdirFails)
            && (c.args[0] in env.chdirFails ==> t.report == Some("-shellax: cd: " + env.chdirFails[c.args[0]] + "\n"))
  {
    assert "-" + SysName + ": cd: " == "-shellax: cd: ";
  }

  /** Only the first argument of `cd` matters: the others are ignored. */
  lemma CdIgnoresLaterArguments(c: Command, more: seq<string>, env: Env)
    requires c.argCount == |c.args| && c.name == "cd" && c.argCount > 0
    ensures ProcessCommand(c.(args := c.args + more, argCount := c.argCount + |more|), env) == ProcessCommand(c, env)
  {
    assert (c.args + more)[0] == c.args[0];
  }

  /** `cd` without an argument is not a built-in: it is looked up in PATH like any program. */
  lemma CdWithoutArgumentLaunches(c: Command, env: Env)
    requires c.argCount == |c.args| && c.name == "cd" && c.argCount == 0 && c.next.None?
    requires PathFits(env.pathVar, env.fs, c.name)
    ensures var t := ProcessCommand(c, env);
            t.Fork? && (t.child.Launch? <==> Resolve(env.pathVar, env.fs, "cd").Some?)
  {
  }

  /** The extension built-ins are chosen before the pipeline and PATH: their
      child does not depend on the successor or on the directories. */
  lemma ExtensionsFirst(c: Command, env: Env, env': Env, n: Option<Command>)
    requires c.argCount == |c.args| && (c.name == "chatroom" || c.name == "wiseman")
    ensures ProcessCommand(c, env).Fork? && ProcessCommand(c, env) == ProcessCommand(c.(next := n), env')
    ensures ProcessCommand(c, env).child == RunExtension(if c.name == "chatroom" then Chatroom else Wiseman)
  {
  }

  /** A command with a successor runs the pipeline. Every stage runs the
      counting filter exactly when it is `uniq` with arguments, the plain one
      exactly when it is `uniq` without, and is then handed to the PATH walk
      whatever its name: a `uniq` stage is also launched when PATH lists `uniq`. */
  lemma PipelineChosen(c: Command, env: Env)
    requires c.argCount == |c.args| && Pipes(c) && PathsFit(c, env)
    ensures var t := ProcessCommand(c, env);
            && t.Fork? && t.child.RunPipeline? && |t.child.stages| == |Stages(c)|
            && forall i :: 0 <= i < |Stages(c)| ==>
                 var st := Stages(c)[i];
                 && (t.child.stages[i].filter == Some(Counted) <==> st.name == "uniq" && st.argCount > 0)
                 && (t.child.stages[i].filter == Some(Plain) <==> st.name == "uniq" && st.argCount == 0)
                 && t.child.stages[i].program == Resolve(env.pathVar, env.fs, st.name)
                 && t.child.stages[i].argv == [st.name] + st.args
  {
  }

  /** A plain external command launches the program PATH resolves it to,
      with its name in front of its arguments; exactly when no directory
      lists it, the child prints the "command not found" report instead. */
  lemma ExternalCommand(c: Command, env: Env)
    requires c.argCount == |c.args| && Launches(c)
    requires PathFits(env.pathVar, env.fs, c.name)
    ensures var t := ProcessCommand(c, env);
            && t.Fork?
            && (t.child.Launch? <==> exists d :: d in PathDirs(env.pathVar) && Lists(env.fs, d, c.name))
            && (t.child.Launch? ==> Some(t.child.path) == Resolve(env.pathVar, env.fs, c.name) && t.child.argv == [c.name] + c.args)
            && (t.child.NotFound? <==> forall d :: d in PathDirs(env.pathVar) ==> !Lists(env.fs, d, c.name))
            && (t.child.NotFound? ==> t.child.report == "-shellax: " + c.name + ": command not found\n")
            && (t.child.NotFound? ==> ChildStatus(t.child) == Some(Unknown))
  {
    assert "-" + SysName + ": " == "-shellax: ";
    var dirs := PathDirs(env.pathVar);
    if exists d :: d in dirs && Lists(env.fs, d, c.name) {
      var d :| d in dirs && Lists(env.fs, d, c.name);
      var i :| 0 <= i < |dirs| && dirs[i] == d;
      assert !(forall j :: 0 <= j < |dirs| ==> !Lists(env.fs, dirs[j], c.name));
    }
  }

  /** A line of blanks parses to the empty command, which the shell finishes at once. */
  lemma BlankLineIsNoOp(line: string, env: Env)
    requires AllDelims(line, Blanks)
    ensures Parsable(Words(line))
    ensures var c := ParseCommand(line);
            c.argCount == |c.args| && ProcessCommand(c, env) == Finish(Success, None, None)
  {
    BlankLine(line);
  }

  /** A forked command marked for the background is not waited for. */
  lemma BackgroundNotAwaited(c: Command, env: Env)
    requires c.argCount == |c.args| && !InShell(c) && c.background
    requires PathsFit(c, env)
    ensures ProcessCommand(c, env) == Fork(ChildOf(c, env), false)
  {
  }

  /** `ls&` is run in the background under the name `ls&`: the shell forks
      without waiting, and the child looks up `ls&`, not `ls`. */
  lemma TrailingAmpersandRunsInBackground(env: Env)
    requires PathFits(env.pathVar, env.fs, "ls&")
    ensures Parsable(Words("ls&"))
    ensures var c := ParseCommand("ls&");
            && c.argCount == |c.args| && Launches(c) && c.name == "ls&"
            && ProcessCommand(c, env) == Fork(ChildOf(c, env), false)
  {
    BackgroundMarkStaysInName();
    BackgroundNotAwaited(ParseCommand("ls&"), env);
  }
}

=== FILE: exec.dfy ===
/**
  Launching an external command: the argument vector handed to `execv`, and
  the search of PATH for the program file. `process_command` and
  `runCommand` do both in the same way: `args` grows by two cells, shifts one
  place right, takes a copy of the name in front and a NULL at the end; then
  PATH is cut at ':' by strtok and each directory's entries are read in
  order until one is named exactly like the command.
*/
module Exec {
  import opened Wrappers
  import opened Strtok
  import opened Commands

  // ---------------------------------------------------------------------------
  // Argument vector
  // ---------------------------------------------------------------------------

  /** What `execv` reads from an argument vector: the strings before the first NULL. */
  function ReadArgv(argv: seq<Option<string>>): (r: seq<string>)
    ensures |r| <= |argv|
    ensures forall i :: 0 <= i < |r| ==> argv[i] == Some(r[i])
    ensures |r| == |argv| || argv[|r|].None?
    decreases |argv|
  {
    if argv == [] || argv[0].None? then [] else [argv[0].value] + ReadArgv(argv[1..])
  }

  /** The argument vector built in place: the array grows to `arg_count + 2`
      cells (the new ones unset), the arguments move one place right by a
      downward loop, the name goes in front and a NULL at the end. */
  method BuildArgv(c: Command) returns (argv: seq<Option<string>>)
    requires c.argCount == |c.args|
    ensures |argv| == c.argCount + 2
    ensures argv[0] == Some(c.name)
    ensures forall i :: 1 <= i <= c.argCount ==> argv[i] == Some(c.args[i - 1])
    ensures argv[c.argCount + 1] == None
    ensures ReadArgv(argv) == [c.name] + c.args
  {
    var n := c.argCount;
    var a := new Option<string>[n + 2](i => if i < n then Some(c.args[i]) else None);
    var i := n;
    while i > 0
      invariant 0 <= i <= n
      invariant forall k :: 0 <= k <= i && k < n ==> a[k] == Some(c.args[k])
      invariant forall k :: i < k <= n ==> a[k] == Some(c.args[k - 1])
      invariant a[n + 1] == None
    {
      a[i] := a[i - 1];
      i := i - 1;
    }
    a[0] := Some(c.name);
    a[n + 1] := None;
    argv := a[..];
    ReadArgvOf(c.name, c.args, argv);
  }

  /** A vector holding a name, the arguments and then a NULL reads back as the
      name followed by the arguments. */
  lemma {:induction false} ReadArgvOf(name: string, args: seq<string>, argv: seq<Option<string>>)
    requires |argv| == |args| + 2 && argv[0] == Some(name) && argv[|args| + 1] == None
    requires forall i :: 1 <= i <= |args| ==> argv[i] == Some(args[i - 1])
    ensures ReadArgv(argv) == [name] + args
    decreases |args|
  {
    if args == [] {
      assert argv[1..][0] == None;
    } else {
      ReadArgvOf(args[0], args[1..], argv[1..]);
    }
  }

  // ---------------------------------------------------------------------------
  // PATH lookup
  // ---------------------------------------------------------------------------

  const PathSep: set<char> := {':'}

  /** Bytes of `pathOfCommand`, terminating NUL included. */
  const PathBufSize: nat := 50

  /** The directories as the shell reads them: a directory name is mapped to
      its entries in `readdir` order, and a name without an entry is a
      directory `opendir` cannot open. */
  type Directories = map<string, seq<string>>

  /** `dir` can be opened and has an entry named `name`. */
  predicate Lists(fs: Directories, dir: string, name: string) {
    dir in fs && name in fs[dir]
  }

  /** The directories PATH names, in order, empty segments dropped. */
  function PathDirs(pathVar: string): seq<string> {
    Split(pathVar, PathSep)
  }

  /** The program file for `name`: the first directory, in order, that lists it. */
  function FindIn(dirs: seq<string>, fs: Directories, name: string): (r: Option<string>)
    ensures r.None? <==> forall i :: 0 <= i < |dirs| ==> !Lists(fs, dirs[i], name)
    decreases |dirs|
  {
    if dirs == [] then None
    else if Lists(fs, dirs[0], name) then Some(dirs[0] + "/" + name)
    else FindIn(dirs[1..], fs, name)
  }

  /** The directory found is the first listing one: every earlier directory
      cannot be opened or lacks the name. */
  lemma {:induction false} FindInFirst(dirs: seq<string>, fs: Directories, name: string, i: nat)
    requires i < |dirs| && Lists(fs, dirs[i], name)
    requires forall j :: 0 <= j < i ==> !Lists(fs, dirs[j], name)
    ensures FindIn(dirs, fs, name) == Some(dirs[i] + "/" + name)
    decreases i
  {
    if i > 0 {
      FindInFirst(dirs[1..], fs, name, i - 1);
    }
  }

  /** The path PATH resolves `name` to, if any. */
  function Resolve(pathVar: string, fs: Directories, name: string): Option<string> {
    FindIn(PathDirs(pathVar), fs, name)
  }

  /** The resolved path fits the 50-byte `pathOfCommand` buffer. */
  predicate PathFits(pathVar: string, fs: Directories, name: string) {
    var r := Resolve(pathVar, fs, name);
    r.Some? ==> |r.value| < PathBufSize
  }

  /** The nested loops of the PATH walk: the path to hand to `execv`, or none
      when the walk ends without a match. */
  method FindInPath(pathVar: string, fs: Directories, name: string) returns (pathOfCommand: Option<string>)
    requires PathFits(pathVar, fs, name)
    ensures pathOfCommand == Resolve(pathVar, fs, name)
    ensures pathOfCommand.None? <==> forall d :: d in PathDirs(pathVar) ==> !Lists(fs, d, name)
  {
    var dirs := PathDirs(pathVar);
    var t := 0;
    while t < |dirs|
      invariant 0 <= t <= |dirs|
      invariant FindIn(dirs, fs, name) == FindIn(dirs[t..], fs, name)
    {
      var token := dirs[t];
      assert dirs[t..][1..] == dirs[t + 1..];
      if token in fs {
        var entries := fs[token];
        var e := 0;
        while e < |entries|
          invariant 0 <= e <= |entries|
          invariant name !in entries[..e]
        {
          if entries[e] == name {
            var p := token + "/" + name;
            assert |p| < PathBufSize;
            return Some(p);
          }
          assert entries[..e + 1] == entries[..e] + [entries[e]];
          e := e + 1;
        }
        assert entries[..e] == entries;
      }
      t := t + 1;
    }
    pathOfCommand := None;
  }

  /** Empty PATH segments are skipped: `a::b` searches what `a:b` searches. */
  lemma EmptySegmentSkipped(a: string, b: string, fs: Directories, name: string)
    ensures Resolve(a + "::" + b, fs, name) == Resolve(a + ":" + b, fs, name)
  {
    assert a + "::" + b == a + [':'] + (":" + b);
    assert a + ":" + b == a + [':'] + b;
    SplitConcat(a, ':', ":" + b, PathSep);
    SplitConcat(a, ':', b, PathSep);
    assert AllDelims(":", PathSep);
    SplitIgnoresOuterDelims(":", b, "", PathSep);
    assert ":" + b + "" == ":" + b;
  }

  /** The first directory of PATH wins when it lists the name, whatever follows. */
  lemma FirstDirectoryWins(dir: string, rest: string, fs: Directories, name: string)
    requires dir != [] && DelimFree(dir, PathSep) && Lists(fs, dir, name)
    ensures Resolve(dir + ":" + rest, fs, name) == Some(dir + "/" + name)
  {
    assert dir + ":" + rest == dir + [':'] + rest;
    SplitConcat(dir, ':', rest, PathSep);
    SplitSingle(dir, PathSep);
  }

  /** A directory that cannot be opened or lacks the name is passed over. */
  lemma UnlistedDirectorySkipped(dir: string, rest: string, fs: Directories, name: string)
    requires dir != [] && DelimFree(dir, PathSep) && !Lists(fs, dir, name)
    ensures Resolve(dir + ":" + rest, fs, name) == Resolve(rest, fs, name)
  {
    assert dir + ":" + rest == dir + [':'] + rest;
    SplitConcat(dir, ':', rest, PathSep);
    SplitSingle(dir, PathSep);
  }
}

=== FILE: parser.dfy ===
/**
  The command-line parser `parse_command`. The line is trimmed of blanks
  (space and tab), a trailing `?` or `&` sets the auto-complete or background
  flag, and the line is split into blank-separated tokens. The first token is
  the name; the others are read left to right and sorted into redirects,
  arguments, a skipped standalone `&`, or a standalone `|` after which the
  rest of the line is parsed as the next stage.

  The source parses the rest of the line by calling itself on the same
  buffer. That nested call re-tokenizes exactly the tokens after the `|`, and
  since strtok keeps one cursor for the whole process, the outer loop then
  finds no token left. The model therefore hands the remaining tokens to the
  next stage. The nested call trims the same line end and so finds the same
  last character; every stage therefore carries the same two flags.
*/
module Parser {
  import opened Wrappers
  import opened Strtok
  import opened Commands

  /** The characters parse_command splits and trims at. */
  const Blanks: set<char> := {' ', '\t'}

  /** Size of the stack buffer `temp_buf`; every token after a stage's name
      is copied into it together with its terminating NUL. */
  const TempBufSize: nat := 1024

  /** The blank-separated tokens of a line. */
  function Words(line: string): seq<string>
  {
    Split(line, Blanks)
  }

  /* ---------------- trimming and trailing flags ---------------- */

  /** `s[lo..hi]` holds nothing but blanks. */
  predicate BlankRange(s: string, lo: nat, hi: nat)
    requires lo <= hi <= |s|
  {
    forall i :: lo <= i < hi ==> s[i] in Blanks
  }

  /** `s` without its leading blanks. */
  function TrimLeft(s: string): (r: string)
    ensures |r| <= |s| && r == s[|s| - |r|..]
    ensures BlankRange(s, 0, |s| - |r|)
    ensures r == [] || r[0] !in Blanks
    decreases |s|
  {
    if s != [] && s[0] in Blanks then TrimLeft(s[1..]) else s
  }

  /** `s` without its trailing blanks. */
  function TrimRight(s: string): (r: string)
    ensures |r| <= |s| && r == s[..|r|]
    ensures BlankRange(s, |r|, |s|)
    ensures r == [] || r[|r| - 1] !in Blanks
    decreases |s|
  {
    if s != [] && s[|s| - 1] in Blanks then
      var r := TrimRight(s[..|s| - 1]);
      assert forall i :: |r| <= i < |s| - 1 ==> s[..|s| - 1][i] == s[i];
      r
    else s
  }

  /** `s` without blanks at either end. */
  function Trim(s: string): (r: string)
    ensures r == [] || (r[0] !in Blanks && r[|r| - 1] !in Blanks)
  {
    TrimRight(TrimLeft(s))
  }

  /** The trimmed line is the piece of `s` starting at `k`, with nothing but
      blanks before and after it. */
  lemma TrimShape(s: string) returns (k: nat)
    ensures k + |Trim(s)| <= |s| && Trim(s) == s[k..k + |Trim(s)|]
    ensures BlankRange(s, 0, k) && BlankRange(s, k + |Trim(s)|, |s|)
  {
    var l := TrimLeft(s);
    var r := TrimRight(l);
    k := |s| - |l|;
    forall i | k + |r| <= i < |s| ensures s[i] in Blanks {
      assert s[i] == l[i - k];
    }
  }

  /** The last character of `t` is `ch`. */
  predicate EndsWith(t: string, ch: char)
  {
    |t| > 0 && t[|t| - 1] == ch
  }

  /** Blanks around a line do not change its tokens, so tokenizing the
      trimmed line and the raw line agree. */
  lemma TrimKeepsWords(s: string)
    ensures Words(Trim(s)) == Words(s)
  {
    var r := Trim(s);
    var k := TrimShape(s);
    var e := k + |r|;
    assert AllDelims(s[..k], Blanks) by {
      forall i | 0 <= i < k ensures s[..k][i] in Blanks {
        assert s[..k][i] == s[i];
      }
    }
    assert AllDelims(s[e..], Blanks) by {
      forall i | 0 <= i < |s| - e ensures s[e..][i] in Blanks {
        assert s[e..][i] == s[e + i];
      }
    }
    Cut3(s, k, e);
    SplitIgnoresOuterDelims(s[..k], r, s[e..], Blanks);
  }

  /** The trimmed line ends with the non-blank `ch` exactly when `ch` occurs in
      the raw line followed by nothing but blanks. */
  lemma TrimmedEndsWith(line: string, ch: char)
    requires ch !in Blanks
    ensures EndsWith(Trim(line), ch) <==> MarkedWith(line, ch)
  {
    if EndsWith(Trim(line), ch) {
      var i := TrimmedMark(line, ch);
    }
    if exists i :: 0 <= i < |line| && FinalMark(line, i, ch) {
      var i :| 0 <= i < |line| && FinalMark(line, i, ch);
      MarkTrimmed(line, ch, i);
    }
  }

  /** Where the last character of the trimmed line sits in the raw line. */
  lemma TrimmedMark(line: string, ch: char) returns (i: nat)
    requires EndsWith(Trim(line), ch)
    ensures i < |line| && FinalMark(line, i, ch)
  {
    var r := Trim(line);
    var k := TrimShape(line);
    i := k + |r| - 1;
    assert line[i] == r[|r| - 1];
  }

  /** A final non-blank mark of the raw line ends the trimmed line. */
  lemma MarkTrimmed(line: string, ch: char, i: nat)
    requires ch !in Blanks && i < |line| && FinalMark(line, i, ch)
    ensures EndsWith(Trim(line), ch)
  {
    var r := Trim(line);
    var k := TrimShape(line);
    var e := k + |r|;
    assert k <= i < e;
    assert line[e - 1] == r[|r| - 1];
    assert i == e - 1;
  }

  /** The last non-blank character of `line` is `ch`. */
  predicate MarkedWith(line: string, ch: char)
  {
    exists i :: 0 <= i < |line| && FinalMark(line, i, ch)
  }

  /** `line[i]` is `ch` and only blanks follow it. */
  predicate FinalMark(line: string, i: nat, ch: char)
    requires i < |line|
  {
    line[i] == ch && BlankRange(line, i + 1, |line|)
  }

  /* ---------------- tokens ---------------- */

  /** How the loop of parse_command reads one token after the name. */
  datatype Token =
    | Bar                                   // a standalone `|`
    | Amp                                   // a standalone `&`, skipped
    | Redirect(slot: Slot, target: string)  // `<x`, `>x` or `>>x`
    | Word(value: string)                   // an argument

  /** The marker a redirect token of the slot starts with. */
  function Marker(s: Slot): string
  {
    match s
    case In => "<"
    case Out => ">"
    case Append => ">>"
  }

  /** Longer than two characters and wrapped in a matching pair of `"` or `'`. */
  predicate Quoted(t: string)
  {
    |t| > 2 && (t[0] == '"' || t[0] == '\'') && t[|t| - 1] == t[0]
  }

  /** An argument token with its surrounding quotes, if any, removed: the
      token changes exactly when it is quoted, and then it is the result
      wrapped in that quote character. */
  function Unquote(t: string): (r: string)
    ensures r != t <==> Quoted(t)
    ensures Quoted(t) ==> t == [t[0]] + r + [t[0]]
  {
    if Quoted(t) then t[1..|t| - 1] else t
  }

  /** The meaning of one token. A redirect token is its marker followed by its
      target, where an output (not append) target never starts with `>`. */
  function Classify(t: string): (k: Token)
    ensures k == Bar <==> t == "|"
    ensures k == Amp <==> t == "&"
    ensures k.Redirect? <==> t != [] && (t[0] == '<' || t[0] == '>')
    ensures k.Redirect? ==> t == Marker(k.slot) + k.target
    ensures k.Redirect? && k.slot == Out ==> k.target == [] || k.target[0] != '>'
    ensures k.Word? ==> k.value == Unquote(t)
  {
    if t == "|" then Bar
    else if t == "&" then Amp
    else if t != [] && t[0] == '<' then Redirect(In, t[1..])
    else if t != [] && t[0] == '>' then
      (if |t| > 1 && t[1] == '>' then Redirect(Append, t[2..]) else Redirect(Out, t[1..]))
    else Word(Unquote(t))
  }

  /* ---------------- what a stage consists of ---------------- */

  /** Position of the first standalone `|` in `rest`, or `|rest|` if none. */
  function FirstBar(rest: seq<string>): (k: nat)
    ensures k <= |rest|
    ensures forall i :: 0 <= i < k ==> rest[i] != "|"
    ensures k < |rest| ==> rest[k] == "|"
  {
    if rest == [] || rest[0] == "|" then 0 else 1 + FirstBar(rest[1..])
  }

  /** The argument values among `ts`, in order: every token that is not a
      bar, not `&` and not a redirect, with its quotes removed. */
  function Arguments(ts: seq<string>): seq<string>
  {
    if ts == [] then [] else WordValue(Classify(ts[0])) + Arguments(ts[1..])
  }

  /** The argument a token contributes: its value when it is a word, nothing otherwise. */
  function WordValue(k: Token): seq<string>
  {
    if k.Word? then [k.value] else []
  }

  /** `t` is a redirect token for slot `s`. */
  predicate RedirectsTo(t: string, s: Slot)
  {
    Classify(t).Redirect? && Classify(t).slot == s
  }

  /** The target of the last redirect token for slot `s` among `ts`. */
  function LastTarget(ts: seq<string>, s: Slot): (r: Option<string>)
    ensures r.None? <==> forall i :: 0 <= i < |ts| ==> !RedirectsTo(ts[i], s)
    ensures r.Some? ==> exists i :: 0 <= i < |ts| && Classify(ts[i]) == Redirect(s, r.value)
                                    && forall j :: i < j < |ts| ==> !RedirectsTo(ts[j], s)
  {
    if ts == [] then None
    else
      var later := LastTarget(ts[1..], s);
      if later.Some? then
        var i :| 0 <= i < |ts[1..]| && Classify(ts[1..][i]) == Redirect(s, later.value)
                 && forall j :: i < j < |ts[1..]| ==> !RedirectsTo(ts[1..][j], s);
        assert Classify(ts[i + 1]) == Redirect(s, later.value);
        assert forall j :: i + 1 < j < |ts| ==> ts[j] == ts[1..][j - 1];
        later
      else if RedirectsTo(ts[0], s) then
        assert forall j :: 0 < j < |ts| ==> ts[j] == ts[1..][j - 1];
        Some(Classify(ts[0]).target)
      else
        assert forall j :: 0 < j < |ts| ==> ts[j] == ts[1..][j - 1];
        None
  }

  /* ---------------- lines the source can parse ---------------- */

  /** The tokens after a stage's name can be scanned: each fits `temp_buf`,
      and a standalone `|` is followed by at least one more token. After a
      last `|` the source writes a blank over the byte that ends the token.
      When the `|` is the last byte of the raw line, the nested parse reads
      past the end of the line. When blanks followed it, the nested parse
      reads the empty text and gives a successor with an empty name. The
      model leaves out both kinds of line, the defined second kind included. */
  predicate ScanOk(rest: seq<string>)
    decreases |rest|, 0
  {
    rest == [] ||
    if rest[0] == "|" then |rest| > 1 && Parsable(rest[1..])
    else |rest[0]| < TempBufSize && ScanOk(rest[1..])
  }

  /** The tokens of a line (or of the rest after a `|`) can be parsed. */
  predicate Parsable(toks: seq<string>)
    decreases |toks|, 1
  {
    toks == [] || ScanOk(toks[1..])
  }

  /** The tokens after the name of the stage the tokens start. */
  function Tail(toks: seq<string>): seq<string>
  {
    if toks == [] then [] else toks[1..]
  }

  /** The tokens of the stage's own part: after its name and before its `|`. */
  function Own(toks: seq<string>): seq<string>
  {
    Tail(toks)[..FirstBar(Tail(toks))]
  }

  /** A standalone `|` follows the stage's name somewhere. */
  predicate HasNext(toks: seq<string>)
  {
    FirstBar(Tail(toks)) < |Tail(toks)|
  }

  /** The tokens after the first `|` of `rest`; they can be parsed in turn. */
  function AfterBar(rest: seq<string>): (r: seq<string>)
    requires ScanOk(rest) && FirstBar(rest) < |rest|
    ensures r == rest[FirstBar(rest) + 1..]
    ensures r != [] && Parsable(r)
    decreases |rest|
  {
    if rest[0] == "|" then rest[1..] else AfterBar(rest[1..])
  }

  /* ---------------- the parser ---------------- */

  /** The token loop of parse_command, with the stage built so far in `acc`.
      It stops at the first `|` and parses the remaining tokens as `next`. */
  function Scan(rest: seq<string>, acc: Command): (c: Command)
    requires ScanOk(rest)
    ensures c.name == acc.name && c.background == acc.background && c.autoComplete == acc.autoComplete
    decreases |rest|, 0
  {
    if rest == [] then acc
    else
      var k := Classify(rest[0]);
      if k.Bar? then acc.(next := Some(ParseTokens(rest[1..], acc.background, acc.autoComplete)))
      else Scan(rest[1..], Step(acc, k))
  }

  /** The stage after one token that is not a bar: a standalone `&` is
      skipped, a redirect fills its slot, a word is appended and counted. */
  function Step(acc: Command, k: Token): (r: Command)
    requires !k.Bar?
    ensures r.name == acc.name && r.background == acc.background && r.autoComplete == acc.autoComplete
    ensures r.next == acc.next
  {
    match k
    case Amp => acc
    case Redirect(s, target) => acc.(redirects := acc.redirects.Set(s, target))
    case Word(v) => acc.(args := acc.args + [v], argCount := acc.argCount + 1)
  }

  /** parse_command on a line already split into tokens, with the flags read
      from the end of the line. */
  function ParseTokens(toks: seq<string>, bg: bool, ac: bool): (c: Command)
    requires Parsable(toks)
    ensures c.name == if toks == [] then "" else toks[0]
    ensures c.background == bg && c.autoComplete == ac
    decreases |toks|, 1
  {
    var name := if toks == [] then "" else toks[0];
    Scan(Tail(toks), Command(name, bg, ac, 0, [], NoRedirects, None))
  }

  /** parse_command on one input line. */
  function ParseCommand(line: string): (c: Command)
    requires Parsable(Words(line))
    ensures c.name == if Words(line) == [] then "" else Words(line)[0]
  {
    var t := Trim(line);
    TrimKeepsWords(line);
    ParseTokens(Words(t), EndsWith(t, '&'), EndsWith(t, '?'))
  }

  /** Trimming a line that neither starts nor ends with a blank keeps it. */
  lemma TrimUnchanged(s: string)
    requires s != [] && s[0] !in Blanks && s[|s| - 1] !in Blanks
    ensures Trim(s) == s
  {
  }

  /** A line of blanks only parses into a stage with an empty name, no
      arguments, no redirects, no flags and no successor. */
  lemma BlankLine(line: string)
    requires AllDelims(line, Blanks)
    ensures Parsable(Words(line))
    ensures ParseCommand(line) == Command("", false, false, 0, [], NoRedirects, None)
  {
    SplitEmptyIff(line, Blanks);
    TrimKeepsWords(line);
    var t := Trim(line);
    SplitEmptyIff(t, Blanks);
    assert t == [];
  }

  /** Every stage of a parsed line is marked background exactly when the last
      non-blank character of the line is `&`, and auto-complete exactly when
      it is `?`; never both. The mark stays part of the last token. */
  lemma LineFlags(line: string)
    requires Parsable(Words(line))
    ensures forall st :: st in Stages(ParseCommand(line)) ==>
              && (st.background <==> MarkedWith(line, '&'))
              && (st.autoComplete <==> MarkedWith(line, '?'))
              && !(st.background && st.autoComplete)
  {
    TrimmedLineFlags(line);
    TrimmedEndsWith(line, '&');
    TrimmedEndsWith(line, '?');
  }

  /** Every stage carries the flags read from the last character of the trimmed line. */
  lemma TrimmedLineFlags(line: string)
    requires Parsable(Words(line))
    ensures forall st :: st in Stages(ParseCommand(line)) ==>
              && (st.background <==> EndsWith(Trim(line), '&'))
              && (st.autoComplete <==> EndsWith(Trim(line), '?'))
  {
    var t := Trim(line);
    LineTokens(line);
    FlagsEveryStage(Words(t), EndsWith(t, '&'), EndsWith(t, '?'));
  }

  /** A line parses as its trimmed tokens, with the flags read from the end
      of the trimmed line. */
  lemma LineTokens(line: string)
    requires Parsable(Words(line))
    ensures Parsable(Words(Trim(line)))
    ensures ParseCommand(line) == ParseTokens(Words(Trim(line)), EndsWith(Trim(line), '&'), EndsWith(Trim(line), '?'))
  {
    TrimKeepsWords(line);
  }

  /** Words written out with single spaces parse as those words, with the
      flags read from the last character of the last word. */
  lemma ParseOfJoinedWords(toks: seq<string>)
    requires toks != [] && Parsable(toks)
    requires forall i :: 0 <= i < |toks| ==> toks[i] != [] && DelimFree(toks[i], Blanks)
    ensures Words(Join(toks, ' ')) == toks
    ensures ParseCommand(Join(toks, ' ')) ==
              ParseTokens(toks, EndsWith(toks[|toks| - 1], '&'), EndsWith(toks[|toks| - 1], '?'))
  {
    var line := Join(toks, ' ');
    SplitJoin(toks, ' ', Blanks);
    JoinEnds(toks, ' ');
    assert toks[0][0] !in Blanks;
    var last := toks[|toks| - 1];
    assert last[|last| - 1] !in Blanks;
    TrimUnchanged(line);
  }

  /* ---------------- what the scan loop builds ---------------- */

  /** One token that is not a bar belongs to the stage's own part. */
  lemma OwnStep(rest: seq<string>)
    requires rest != [] && rest[0] != "|"
    ensures rest[..FirstBar(rest)] == [rest[0]] + rest[1..][..FirstBar(rest[1..])]
  {
  }

  /** The scan appends the stage's argument tokens, unquoted and in order,
      and counts each one. */
  lemma {:induction false} ScanArgs(rest: seq<string>, acc: Command)
    requires ScanOk(rest)
    ensures Scan(rest, acc).args == acc.args + Arguments(rest[..FirstBar(rest)])
    ensures Scan(rest, acc).argCount == acc.argCount + |Arguments(rest[..FirstBar(rest)])|
    decreases |rest|
  {
    if rest == [] || rest[0] == "|" {
      assert rest[..FirstBar(rest)] == [];
    } else {
      OwnStep(rest);
      var own := rest[..FirstBar(rest)];
      var own' := rest[1..][..FirstBar(rest[1..])];
      var k := Classify(rest[0]);
      var acc' := Step(acc, k);
      ScanArgs(rest[1..], acc');
      assert Arguments(own) == WordValue(k) + Arguments(own');
      assert acc'.args == acc.args + WordValue(k);
      assert acc'.args + Arguments(own') == acc.args + Arguments(own);
    }
  }

  /** After the scan each redirect slot holds the target of the stage's last
      redirect token for it, or what it held before when there is none. */
  lemma {:induction false} ScanRedirects(rest: seq<string>, acc: Command, s: Slot)
    requires ScanOk(rest)
    ensures Scan(rest, acc).redirects.Get(s) ==
              (var t := LastTarget(rest[..FirstBar(rest)], s); if t.Some? then t else acc.redirects.Get(s))
    decreases |rest|
  {
    if rest != [] && rest[0] != "|" {
      OwnStep(rest);
      ScanRedirects(rest[1..], Step(acc, Classify(rest[0])), s);
    }
  }

  /** The scan attaches the tokens after the first bar, parsed with the same
      flags, as the next stage; without a bar it leaves `next` alone. */
  lemma {:induction false} ScanNext(rest: seq<string>, acc: Command)
    requires ScanOk(rest)
    ensures Scan(rest, acc).next ==
              if FirstBar(rest) < |rest|
              then Some(ParseTokens(AfterBar(rest), acc.background, acc.autoComplete))
              else acc.next
    decreases |rest|
  {
    if rest != [] && rest[0] != "|" {
      ScanNext(rest[1..], Step(acc, Classify(rest[0])));
    }
  }

  /* ---------------- what a parsed stage holds ---------------- */

  /** The arguments of a stage are the values of its own argument tokens, in
      order: standalone `&` and redirect tokens are left out, quoted tokens
      lose their quotes, and `argCount` is their number. */
  lemma StageArgs(toks: seq<string>, bg: bool, ac: bool)
    requires Parsable(toks)
    ensures ParseTokens(toks, bg, ac).args == Arguments(Own(toks))
    ensures ParseTokens(toks, bg, ac).argCount == |Arguments(Own(toks))|
  {
    ScanArgs(Tail(toks), Command(if toks == [] then "" else toks[0], bg, ac, 0, [], NoRedirects, None));
  }

  /** Each redirect slot of a stage holds the target of the stage's last
      redirect token for that slot, and is empty when there is none. */
  lemma StageRedirects(toks: seq<string>, bg: bool, ac: bool, s: Slot)
    requires Parsable(toks)
    ensures ParseTokens(toks, bg, ac).redirects.Get(s) == LastTarget(Own(toks), s)
  {
    ScanRedirects(Tail(toks), Command(if toks == [] then "" else toks[0], bg, ac, 0, [], NoRedirects, None), s);
  }

  /** A stage has a successor exactly when a standalone `|` follows its name,
      and the successor is the parse of the tokens after the first such bar. */
  lemma StageNext(toks: seq<string>, bg: bool, ac: bool)
    requires Parsable(toks)
    ensures ParseTokens(toks, bg, ac).next.Some? <==> HasNext(toks)
    ensures HasNext(toks) ==>
              ParseTokens(toks, bg, ac).next == Some(ParseTokens(AfterBar(Tail(toks)), bg, ac))
  {
    ScanNext(Tail(toks), Command(if toks == [] then "" else toks[0], bg, ac, 0, [], NoRedirects, None));
  }

  /** Every stage of a parsed chain keeps `arg_count` equal to the number of
      stored arguments. */
  lemma {:induction false} ParsedValid(toks: seq<string>, bg: bool, ac: bool)
    requires Parsable(toks)
    ensures Valid(ParseTokens(toks, bg, ac))
    decreases |toks|
  {
    StageArgs(toks, bg, ac);
    StageNext(toks, bg, ac);
    if HasNext(toks) {
      ParsedValid(AfterBar(Tail(toks)), bg, ac);
    }
  }

  /** Every stage of a parsed chain carries the flags read from the end of
      the whole line. */
  lemma {:induction false} FlagsEveryStage(toks: seq<string>, bg: bool, ac: bool)
    requires Parsable(toks)
    ensures forall st :: st in Stages(ParseTokens(toks, bg, ac)) ==> st.background == bg && st.autoComplete == ac
    decreases |toks|
  {
    var c := ParseTokens(toks, bg, ac);
    StageNext(toks, bg, ac);
    if HasNext(toks) {
      FlagsEveryStage(AfterBar(Tail(toks)), bg, ac);
    }
  }

  /* ---------------- pipelines ---------------- */

  /** The number of standalone `|` tokens. */
  function CountBars(toks: seq<string>): nat
  {
    multiset(toks)["|"]
  }

  /** The tokens up to the first bar after the name hold no bar when the
      name is not one, and the tokens after that bar are what the next stage
      parses. */
  lemma BarSplit(toks: seq<string>)
    requires toks != [] && toks[0] != "|"
    ensures var f := FirstBar(Tail(toks));
            && "|" !in toks[..f + 1]
            && (f < |Tail(toks)| ==> toks == toks[..f + 1] + ["|"] + Tail(toks)[f + 1..])
            && (f == |Tail(toks)| ==> toks == toks[..f + 1])
  {
    var t := toks[1..];
    var f := FirstBar(t);
    assert Tail(toks) == t;
    var h := toks[..f + 1];
    assert "|" !in h by {
      forall i | 0 <= i < |h| ensures h[i] != "|" {
        if i > 0 {
          assert h[i] == t[i - 1];
        }
      }
    }
    if f < |t| {
      assert toks == toks[..f + 1] + ["|"] + t[f + 1..] by {
        assert toks == [toks[0]] + t;
        assert t == t[..f] + [t[f]] + t[f + 1..];
        assert toks[..f + 1] == [toks[0]] + t[..f];
      }
    } else {
      assert toks == toks[..f + 1];
    }
  }

  /** A line whose standalone bars all separate two stages (none first, none
      last, no two adjacent) parses into one stage more than it has bars. */
  lemma {:induction false} ChainLength(toks: seq<string>, bg: bool, ac: bool)
    requires Parsable(toks)
    requires toks != [] && toks[0] != "|" && toks[|toks| - 1] != "|"
    requires forall i :: 0 <= i < |toks| - 1 ==> !(toks[i] == "|" && toks[i + 1] == "|")
    ensures |Stages(ParseTokens(toks, bg, ac))| == CountBars(toks) + 1
    decreases |toks|
  {
    var c := ParseTokens(toks, bg, ac);
    var f := FirstBar(Tail(toks));
    StageNext(toks, bg, ac);
    BarSplit(toks);
    var head := toks[..f + 1];
    assert multiset(head)["|"] == 0;
    if HasNext(toks) {
      var rest := AfterBar(Tail(toks));
      assert toks == head + ["|"] + rest;
      AdjacentFree(head, rest, toks);
      ChainLength(rest, bg, ac);
      assert multiset(toks) == multiset(head) + multiset(["|"]) + multiset(rest);
      assert Stages(c) == [c.(next := None)] + Stages(ParseTokens(rest, bg, ac));
    } else {
      assert Stages(c) == [c.(next := None)];
    }
  }

  /** The tokens after a separating bar keep the conditions of `ChainLength`. */
  lemma AdjacentFree(head: seq<string>, rest: seq<string>, toks: seq<string>)
    requires toks == head + ["|"] + rest && head != [] && rest != []
    requires toks[|toks| - 1] != "|"
    requires forall i :: 0 <= i < |toks| - 1 ==> !(toks[i] == "|" && toks[i + 1] == "|")
    ensures rest[0] != "|" && rest[|rest| - 1] != "|"
    ensures forall i :: 0 <= i < |rest| - 1 ==> !(rest[i] == "|" && rest[i + 1] == "|")
  {
    var n := |head| + 1;
    assert toks[n - 1] == "|" && toks[n] == rest[0];
    assert rest[|rest| - 1] == toks[|toks| - 1];
    forall i | 0 <= i < |rest| - 1 ensures !(rest[i] == "|" && rest[i + 1] == "|") {
      assert rest[i] == toks[n + i] && rest[i + 1] == toks[n + i + 1];
    }
  }

  /** The tokens of one pipeline stage: a name followed by tokens that are
      not bars and fit `temp_buf`. */
  predicate Segment(seg: seq<string>)
  {
    && seg != []
    && (forall i :: 1 <= i < |seg| ==> seg[i] != "|")
    && (forall i :: 1 <= i < |seg| ==> |seg[i]| < TempBufSize)
  }

  /** Tokens that are not bars and fit `temp_buf`, followed by scannable
      tokens, can be scanned. */
  lemma {:induction false} ScanOkAppend(own: seq<string>, rest: seq<string>)
    requires forall i :: 0 <= i < |own| ==> own[i] != "|" && |own[i]| < TempBufSize
    requires ScanOk(rest)
    ensures ScanOk(own + rest)
    decreases |own|
  {
    if own != [] {
      assert (own + rest)[0] == own[0];
      assert (own + rest)[1..] == own[1..] + rest;
      ScanOkAppend(own[1..], rest);
    } else {
      assert own + rest == rest;
    }
  }

  /** A single stage can be parsed. */
  lemma SegmentParsable(seg: seq<string>)
    requires Segment(seg)
    ensures Parsable(seg)
  {
    ScanOkAppend(seg[1..], []);
    assert seg[1..] + [] == seg[1..];
  }

  /** The stage parsed from one segment on its own. */
  function StageOf(seg: seq<string>, bg: bool, ac: bool): (c: Command)
    requires Segment(seg)
    ensures c.next.None?
  {
    SegmentParsable(seg);
    StageNext(seg, bg, ac);
    ParseTokens(seg, bg, ac)
  }

  /** Segments written out with a standalone `|` between neighbours. */
  function JoinBars(segs: seq<seq<string>>): (r: seq<string>)
    requires segs != []
    ensures |r| >= |segs[0]| && r[..|segs[0]|] == segs[0]
  {
    if |segs| == 1 then segs[0] else segs[0] + ["|"] + JoinBars(segs[1..])
  }

  /** Two token lists with the same name and the same own tokens parse into
      the same stage, whatever follows. */
  lemma SameStage(t1: seq<string>, t2: seq<string>, bg: bool, ac: bool)
    requires Parsable(t1) && Parsable(t2)
    requires t1 != [] && t2 != [] && t1[0] == t2[0] && Own(t1) == Own(t2)
    ensures ParseTokens(t1, bg, ac).(next := None) == ParseTokens(t2, bg, ac).(next := None)
  {
    var c1 := ParseTokens(t1, bg, ac);
    var c2 := ParseTokens(t2, bg, ac);
    StageArgs(t1, bg, ac);
    StageArgs(t2, bg, ac);
    StageRedirects(t1, bg, ac, In);
    StageRedirects(t2, bg, ac, In);
    StageRedirects(t1, bg, ac, Out);
    StageRedirects(t2, bg, ac, Out);
    StageRedirects(t1, bg, ac, Append);
    StageRedirects(t2, bg, ac, Append);
    assert c1.redirects == c2.redirects;
  }

  /** A stage followed by a bar and a parsable remainder: the stage keeps
      its own tokens and the remainder is what the next stage parses. */
  lemma BarJoin(seg: seq<string>, j: seq<string>)
    requires Segment(seg) && j != [] && Parsable(j)
    ensures Parsable(seg + ["|"] + j)
    ensures Own(seg + ["|"] + j) == Own(seg) && HasNext(seg + ["|"] + j)
    ensures AfterBar(Tail(seg + ["|"] + j)) == j
  {
    var toks := seg + ["|"] + j;
    var own := seg[1..];
    assert Tail(toks) == own + (["|"] + j);
    assert ScanOk(["|"] + j) by { assert (["|"] + j)[1..] == j; }
    ScanOkAppend(own, ["|"] + j);
    FirstBarAfter(own, j);
    assert Tail(seg) == own;
  }

  /** Every element is the token list of one stage. */
  predicate Segments(segs: seq<seq<string>>)
  {
    forall i :: 0 <= i < |segs| ==> Segment(segs[i])
  }

  /** The stages the segments parse into one by one, in order. */
  function StagesOf(segs: seq<seq<string>>, bg: bool, ac: bool): (r: seq<Command>)
    requires Segments(segs)
    ensures |r| == |segs|
    decreases |segs|
  {
    if segs == [] then [] else [StageOf(segs[0], bg, ac)] + StagesOf(segs[1..], bg, ac)
  }

  /** A line made of segments joined by bars parses into a chain of exactly
      those stages, in left-to-right order. */
  lemma {:induction false} PipelineStages(segs: seq<seq<string>>, bg: bool, ac: bool)
    requires segs != [] && Segments(segs)
    ensures Parsable(JoinBars(segs))
    ensures Stages(ParseTokens(JoinBars(segs), bg, ac)) == StagesOf(segs, bg, ac)
    decreases |segs|
  {
    var seg := segs[0];
    assert Segment(seg);
    SegmentParsable(seg);
    if |segs| == 1 {
      var c := StageOf(seg, bg, ac);
      assert Stages(c) == [c];
      assert StagesOf(segs, bg, ac) == [c] + StagesOf([], bg, ac);
    } else {
      var j := JoinBars(segs[1..]);
      assert Segments(segs[1..]) by {
        forall i | 0 <= i < |segs| - 1 ensures Segment(segs[1..][i]) {
          assert segs[1..][i] == segs[i + 1];
        }
      }
      PipelineStages(segs[1..], bg, ac);
      assert Segment(segs[1]);
      PipelineStep(seg, j, bg, ac);
      assert JoinBars(segs) == seg + ["|"] + j;
    }
  }

  /** One stage joined by a bar to a parsable remainder heads the chain the
      remainder parses into. */
  lemma PipelineStep(seg: seq<string>, j: seq<string>, bg: bool, ac: bool)
    requires Segment(seg) && j != [] && Parsable(j)
    ensures Parsable(seg + ["|"] + j)
    ensures Stages(ParseTokens(seg + ["|"] + j, bg, ac)) == [StageOf(seg, bg, ac)] + Stages(ParseTokens(j, bg, ac))
  {
    SegmentParsable(seg);
    BarJoin(seg, j);
    var toks := seg + ["|"] + j;
    SameStage(toks, seg, bg, ac);
    StageNext(toks, bg, ac);
    var c := ParseTokens(toks, bg, ac);
    assert c.next == Some(ParseTokens(j, bg, ac));
  }

  /** The first bar after bar-free tokens is the one that follows them. */
  lemma FirstBarAfter(own: seq<string>, j: seq<string>)
    requires forall i :: 0 <= i < |own| ==> own[i] != "|"
    ensures FirstBar(own + (["|"] + j)) == |own|
    ensures FirstBar(own) == |own|
  {
    var t := own + (["|"] + j);
    assert t[|own|] == "|";
    assert forall i :: 0 <= i < |own| ==> t[i] == own[i];
  }

  /* ---------------- worked lines ---------------- */

  /** `ls&`: the trailing `&` makes the line a background one but is not
      removed, so it stays part of the name. */
  lemma BackgroundMarkStaysInName()
    ensures Parsable(Words("ls&"))
    ensures var c := ParseCommand("ls&");
            c.name == "ls&" && c.background && !c.autoComplete && c.argCount == 0 && c.args == [] && c.next.None?
  {
    ParseOfJoinedWords(["ls&"]);
    assert Join(["ls&"], ' ') == "ls&";
  }

  /** Quote stripping on single tokens: a token longer than two characters
      wrapped in matching quotes loses them, `''` and half-quoted tokens
      stay as they are. */
  lemma QuoteExamples()
    ensures Classify("\"hi\"") == Word("hi")
    ensures Classify("'x'") == Word("x")
    ensures Classify("''") == Word("''")
    ensures Classify("\"b") == Word("\"b")
    ensures Classify("'d\"") == Word("'d\"")
  {
  }

  /** Redirect tokens on their own: the marker picks the slot and the rest of
      the token is the target. */
  lemma RedirectExamples()
    ensures Classify("<in") == Redirect(In, "in")
    ensures Classify(">out") == Redirect(Out, "out")
    ensures Classify(">>log") == Redirect(Append, "log")
    ensures Classify(">>") == Redirect(Append, "")
  {
  }

  /** Unquoting a non-empty, blank-free token keeps it non-empty and blank-free. */
  lemma UnquoteBlankFree(t: string)
    requires t != [] && DelimFree(t, Blanks)
    ensures Unquote(t) != [] && DelimFree(Unquote(t), Blanks)
  {
    if Quoted(t) {
      var r := Unquote(t);
      forall i | 0 <= i < |r| ensures r[i] !in Blanks {
        assert r[i] == t[i + 1];
      }
    }
  }

  /** Every element is a non-empty run of non-blanks, as the words of a line are. */
  predicate BlankFree(ts: seq<string>)
  {
    forall i :: 0 <= i < |ts| ==> ts[i] != [] && DelimFree(ts[i], Blanks)
  }

  /** A slice of blank-free words is blank-free. */
  lemma SliceBlankFree(ts: seq<string>, i: nat, j: nat)
    requires BlankFree(ts) && i <= j <= |ts|
    ensures BlankFree(ts[i..j])
  {
    forall k | 0 <= k < j - i ensures ts[i..j][k] != [] && DelimFree(ts[i..j][k], Blanks) {
      assert ts[i..j][k] == ts[i + k];
    }
  }

  /** The argument values of blank-free tokens are blank-free. */
  lemma {:induction false} ArgumentsBlankFree(ts: seq<string>)
    requires BlankFree(ts)
    ensures BlankFree(Arguments(ts))
    decreases |ts|
  {
    if ts != [] {
      UnquoteBlankFree(ts[0]);
      SliceBlankFree(ts, 1, |ts|);
      ArgumentsBlankFree(ts[1..]);
    }
  }

  /** Blank-free tokens give a stage whose own arguments are blank-free. */
  lemma OwnBlankFree(toks: seq<string>, bg: bool, ac: bool)
    requires Parsable(toks) && BlankFree(toks)
    ensures BlankFree(ParseTokens(toks, bg, ac).args)
  {
    StageArgs(toks, bg, ac);
    if toks != [] {
      var f := FirstBar(toks[1..]);
      assert Own(toks) == toks[1..f + 1];
      SliceBlankFree(toks, 1, f + 1);
      ArgumentsBlankFree(Own(toks));
    }
  }

  /** The tokens after a stage's bar are blank-free when the line's are. */
  lemma AfterBarBlankFree(toks: seq<string>)
    requires Parsable(toks) && BlankFree(toks) && HasNext(toks)
    ensures BlankFree(AfterBar(Tail(toks)))
  {
    var f := FirstBar(toks[1..]);
    assert AfterBar(Tail(toks)) == toks[f + 2..];
    SliceBlankFree(toks, f + 2, |toks|);
  }

  /** Blank-free tokens give stages whose arguments are blank-free. */
  lemma {:induction false} StagesBlankFree(toks: seq<string>, bg: bool, ac: bool)
    requires Parsable(toks) && BlankFree(toks)
    ensures forall st :: st in Stages(ParseTokens(toks, bg, ac)) ==> BlankFree(st.args)
    decreases |toks|
  {
    var c := ParseTokens(toks, bg, ac);
    OwnBlankFree(toks, bg, ac);
    StageNext(toks, bg, ac);
    if HasNext(toks) {
      var r := AfterBar(Tail(toks));
      AfterBarBlankFree(toks);
      StagesBlankFree(r, bg, ac);
      assert Stages(c) == [c.(next := None)] + Stages(ParseTokens(r, bg, ac));
    } else {
      assert Stages(c) == [c.(next := None)];
    }
  }

  /** Splitting on blanks comes before quote stripping, so no argument of any
      stage contains a blank: a quoted phrase such as `"b c"` reaches the
      stage as the two arguments `"b` and `c"`, each keeping its quote. */
  lemma NoArgumentHasBlank(line: string)
    requires Parsable(Words(line))
    ensures forall st :: st in Stages(ParseCommand(line)) ==> BlankFree(st.args)
  {
    var t := Trim(line);
    LineTokens(line);
    StagesBlankFree(Words(t), EndsWith(t, '&'), EndsWith(t, '?'));
  }
}

=== FILE: strtok.dfy ===
/**
  The tokenizer behaviour of C's `strtok`, which the shell uses three times:
  on blanks for the command line, on ':' for PATH and on '\n' for the
  in-process `uniq` filter. A call skips leading delimiters, returns the
  longest delimiter-free run that follows, and reports the end once only
  delimiters remain: runs of delimiters collapse and no token is empty.
*/
module Strtok {

  /** No character of `s` is a delimiter. */
  predicate DelimFree(s: string, delims: set<char>) {
    forall i :: 0 <= i < |s| ==> s[i] !in delims
  }

  /** Every character of `s` is a delimiter. */
  predicate AllDelims(s: string, delims: set<char>) {
    forall i :: 0 <= i < |s| ==> s[i] in delims
  }

  /** The token at the start of `s`: its longest delimiter-free prefix. */
  function TakeToken(s: string, delims: set<char>): (t: string)
    ensures |t| <= |s| && t == s[..|t|]
    ensures DelimFree(t, delims)
    ensures |t| == |s| || s[|t|] in delims
  {
    if s == [] || s[0] in delims then [] else [s[0]] + TakeToken(s[1..], delims)
  }

  /** The successive tokens strtok returns for `s`. */
  function Split(s: string, delims: set<char>): (r: seq<string>)
    ensures forall i :: 0 <= i < |r| ==> r[i] != [] && DelimFree(r[i], delims)
    decreases |s|
  {
    if s == [] then []
    else if s[0] in delims then Split(s[1..], delims)
    else
      var t := TakeToken(s, delims);
      [t] + Split(s[|t|..], delims)
  }

  /** The tokens written back out with one separator between neighbours. */
  function Join(toks: seq<string>, sep: char): string
  {
    if toks == [] then []
    else if |toks| == 1 then toks[0]
    else toks[0] + [sep] + Join(toks[1..], sep)
  }

  /** A text is its three consecutive pieces. */
  lemma Cut3(s: string, i: nat, j: nat)
    requires i <= j <= |s|
    ensures s == s[..i] + s[i..j] + s[j..]
  {
  }

  /** strtok reports no token exactly when the text holds only delimiters. */
  lemma {:induction false} SplitEmptyIff(s: string, delims: set<char>)
    ensures Split(s, delims) == [] <==> AllDelims(s, delims)
    decreases |s|
  {
    if s != [] && s[0] in delims {
      SplitEmptyIff(s[1..], delims);
      if AllDelims(s[1..], delims) {
        forall i | 0 <= i < |s| ensures s[i] in delims {
          if i > 0 { assert s[i] == s[1..][i - 1]; }
        }
      }
    }
  }

  /** A token stops at the first delimiter, whatever follows it. */
  lemma {:induction false} TakeTokenStops(a: string, d: char, b: string, delims: set<char>)
    requires d in delims
    ensures TakeToken(a + [d] + b, delims) == TakeToken(a, delims)
    decreases |a|
  {
    if a == [] {
      assert (a + [d] + b)[0] == d;
    } else {
      assert (a + [d] + b)[0] == a[0];
      if a[0] !in delims {
        assert (a + [d] + b)[1..] == a[1..] + [d] + b;
        TakeTokenStops(a[1..], d, b, delims);
      }
    }
  }

  /** A delimiter cuts the text in two: the tokens of the whole are the
      tokens of the part before it followed by those of the part after it. */
  lemma {:induction false} SplitConcat(a: string, d: char, b: string, delims: set<char>)
    requires d in delims
    ensures Split(a + [d] + b, delims) == Split(a, delims) + Split(b, delims)
    decreases |a|
  {
    var s := a + [d] + b;
    if a == [] {
      assert s == [d] + b;
      assert s[1..] == b;
    } else if a[0] in delims {
      assert s[0] == a[0];
      assert s[1..] == a[1..] + [d] + b;
      SplitConcat(a[1..], d, b, delims);
    } else {
      assert s[0] == a[0];
      TakeTokenStops(a, d, b, delims);
      var t := TakeToken(a, delims);
      assert |t| >= 1 by { assert a[0] !in delims; }
      assert s[|t|..] == a[|t|..] + [d] + b;
      assert Split(s, delims) == [t] + Split(s[|t|..], delims);
      assert Split(a, delims) == [t] + Split(a[|t|..], delims);
      SplitConcat(a[|t|..], d, b, delims);
    }
  }

  /** A non-empty delimiter-free text is a single token. */
  lemma {:induction false} SplitSingle(t: string, delims: set<char>)
    requires t != [] && DelimFree(t, delims)
    ensures Split(t, delims) == [t]
  {
    TakeTokenWhole(t, delims);
    assert t[|t|..] == [];
  }

  /** The token taken from a delimiter-free text is all of it. */
  lemma {:induction false} TakeTokenWhole(t: string, delims: set<char>)
    requires DelimFree(t, delims)
    ensures TakeToken(t, delims) == t
    decreases |t|
  {
    if t != [] {
      assert t[0] !in delims;
      TakeTokenWhole(t[1..], delims);
      assert t == [t[0]] + t[1..];
    }
  }

  /** Splitting undoes joining: tokens that are non-empty and free of
      delimiters come back unchanged from `Join` followed by `Split`. */
  lemma {:induction false} SplitJoin(toks: seq<string>, sep: char, delims: set<char>)
    requires sep in delims
    requires forall i :: 0 <= i < |toks| ==> toks[i] != [] && DelimFree(toks[i], delims)
    ensures Split(Join(toks, sep), delims) == toks
    decreases |toks|
  {
    if |toks| == 1 {
      SplitSingle(toks[0], delims);
    } else if |toks| > 1 {
      SplitConcat(toks[0], sep, Join(toks[1..], sep), delims);
      SplitSingle(toks[0], delims);
      SplitJoin(toks[1..], sep, delims);
    }
  }

  /** Delimiters at either end of a text do not change its tokens. */
  lemma {:induction false} SplitIgnoresOuterDelims(pre: string, s: string, post: string, delims: set<char>)
    requires AllDelims(pre, delims) && AllDelims(post, delims)
    ensures Split(pre + s + post, delims) == Split(s, delims)
    decreases |pre|
  {
    if pre != [] {
      assert (pre + s + post)[0] == pre[0];
      assert (pre + s + post)[1..] == pre[1..] + s + post;
      SplitIgnoresOuterDelims(pre[1..], s, post, delims);
    } else {
      assert pre + s + post == s + post;
      if post != [] {
        assert s + post == s + [post[0]] + post[1..];
        SplitConcat(s, post[0], post[1..], delims);
        SplitEmptyIff(post[1..], delims);
        assert AllDelims(post[1..], delims) by {
          forall i | 0 <= i < |post[1..]| ensures post[1..][i] in delims { assert post[1..][i] == post[i + 1]; }
        }
      } else {
        assert s + post == s;
      }
    }
  }

  /** A join of non-empty tokens starts with the first character of the first
      token and ends with the last character of the last one. */
  lemma {:induction false} JoinEnds(toks: seq<string>, sep: char)
    requires toks != [] && forall i :: 0 <= i < |toks| ==> toks[i] != []
    ensures var j := Join(toks, sep);
            |j| > 0 && j[0] == toks[0][0] && j[|j| - 1] == toks[|toks| - 1][|toks[|toks| - 1]| - 1]
    decreases |toks|
  {
    if |toks| > 1 {
      JoinEnds(toks[1..], sep);
    }
  }
}

=== FILE: uniq.dfy ===
/**
  The shell's in-process `uniq` filters. `ourUniq` cuts its input into lines
  with strtok on '\n' (so empty lines vanish), keeps the first occurrence of
  each line in input order and prints each kept line followed by '\n'.
  `ourUniq2` does the same and prints every kept line as `<count> <line>`,
  where the count is how often the line occurs in the input. `pipeCommand`
  runs the filter for a stage named `uniq`, choosing the counting one when
  the stage has arguments.
*/
module Uniq {
  import opened Wrappers
  import opened Strtok
  import opened Commands

  const LineBreak: set<char> := {'\n'}

  /** Rows of the `visited` table: at most this many distinct lines. */
  const MaxDistinct: nat := 100

  /** Bytes per row of the `visited` table, terminating NUL included. */
  const LineBufSize: nat := 100

  /** The lines strtok hands out: non-empty, without the line break. */
  function Lines(input: string): seq<string>
  {
    Split(input, LineBreak)
  }

  /** No element occurs twice. */
  predicate NoDup(s: seq<string>) {
    forall i, j :: 0 <= i < j < |s| ==> s[i] != s[j]
  }

  /** The lines kept by the filter: scanning left to right, a line is appended
      unless an equal one was already kept. */
  function Dedup(s: seq<string>): (r: seq<string>)
    ensures NoDup(r)
    ensures forall x :: x in r <==> x in s
    decreases |s|
  {
    if s == [] then []
    else
      var d := Dedup(s[..|s| - 1]);
      assert s == s[..|s| - 1] + [s[|s| - 1]];
      if s[|s| - 1] in d then d else d + [s[|s| - 1]]
  }

  /** The position of the first occurrence of `x` in `s`, or `|s|` when there is none. */
  function FirstIndex(s: seq<string>, x: string): (i: nat)
    ensures i <= |s| && x !in s[..i]
    ensures i < |s| ==> s[i] == x
    decreases |s|
  {
    if s == [] || s[0] == x then 0
    else
      var i := 1 + FirstIndex(s[1..], x);
      assert s[..i] == [s[0]] + s[1..][..i - 1];
      i
  }

  /** The elements of `r` appear in the order of their first occurrence in `s`. */
  predicate FirstOccurrenceOrder(r: seq<string>, s: seq<string>) {
    forall i, j :: 0 <= i < j < |r| ==> FirstIndex(s, r[i]) < FirstIndex(s, r[j])
  }

  /** Appending to a sequence does not move the first occurrence of an element it already holds. */
  lemma {:induction false} FirstIndexAppend(s: seq<string>, y: string, x: string)
    requires x in s
    ensures FirstIndex(s + [y], x) == FirstIndex(s, x)
    decreases |s|
  {
    if s[0] != x {
      assert (s + [y])[1..] == s[1..] + [y];
      FirstIndexAppend(s[1..], y, x);
    }
  }

  /** The kept lines come in the order of their first occurrence. */
  lemma {:induction false} DedupOrder(s: seq<string>)
    ensures FirstOccurrenceOrder(Dedup(s), s)
    decreases |s|
  {
    if s != [] {
      var p := s[..|s| - 1];
      var y := s[|s| - 1];
      assert s == p + [y];
      DedupOrder(p);
      var d := Dedup(p);
      forall x | x in d ensures FirstIndex(s, x) == FirstIndex(p, x) {
        FirstIndexAppend(p, y, x);
      }
      if y !in d {
        assert FirstIndex(s, y) == |p| by {
          assert y !in p;
          assert s[..|p|] == p;
        }
        forall i | 0 <= i < |d| ensures FirstIndex(s, d[i]) < |p| {
          assert d[i] in d;
          assert d[i] in p;
        }
      }
    }
  }

  /** A non-empty sequence holds its first element. */
  lemma HeadIn(b: seq<string>)
    ensures b != [] ==> b[0] in b
  {
  }

  /** In a first-occurrence ordering the head comes first in `s`. */
  lemma HeadFirst(a: seq<string>, s: seq<string>, x: string)
    requires FirstOccurrenceOrder(a, s) && x in a
    ensures FirstIndex(s, a[0]) <= FirstIndex(s, x)
  {
    var m :| 0 <= m < |a| && a[m] == x;
    if m > 0 {
      assert FirstIndex(s, a[0]) < FirstIndex(s, a[m]);
    }
  }

  /** Dropping the head keeps a first-occurrence ordering. */
  lemma TailOrder(a: seq<string>, s: seq<string>)
    requires FirstOccurrenceOrder(a, s) && a != []
    ensures FirstOccurrenceOrder(a[1..], s)
    ensures forall x :: x in a[1..] ==> FirstIndex(s, a[0]) < FirstIndex(s, x)
  {
    forall i, j | 0 <= i < j < |a[1..]| ensures FirstIndex(s, a[1..][i]) < FirstIndex(s, a[1..][j]) {
      assert a[1..][i] == a[i + 1] && a[1..][j] == a[j + 1];
    }
    forall x | x in a[1..] ensures FirstIndex(s, a[0]) < FirstIndex(s, x) {
      var i :| 0 <= i < |a[1..]| && a[1..][i] == x;
      assert FirstIndex(s, a[0]) < FirstIndex(s, a[i + 1]);
    }
  }

  /** Two orderings of the same elements by first occurrence in `s` are the
      same sequence. */
  lemma {:induction false} OrderDetermines(a: seq<string>, b: seq<string>, s: seq<string>)
    requires forall x :: x in a ==> x in s
    requires forall x :: x in a <==> x in b
    requires FirstOccurrenceOrder(a, s) && FirstOccurrenceOrder(b, s)
    ensures a == b
    decreases |a|
  {
    HeadIn(a);
    HeadIn(b);
    if a != [] {
      HeadFirst(a, s, b[0]);
      HeadFirst(b, s, a[0]);
      assert a[0] == b[0] by {
        var i := FirstIndex(s, a[0]);
        assert i < |s| && s[i] == a[0] && s[i] == b[0];
      }
      TailOrder(a, s);
      TailOrder(b, s);
      assert a == [a[0]] + a[1..] && b == [b[0]] + b[1..];
      forall x ensures x in a[1..] <==> x in b[1..] {
        if x in a[1..] {
          assert x in b && x != b[0];
        }
        if x in b[1..] {
          assert x in a && x != a[0];
        }
      }
      OrderDetermines(a[1..], b[1..], s);
    }
  }

  /** `Dedup` is characterised by its three properties: a sequence holds
      exactly the elements of `s`, each once, in first-occurrence order,
      if and only if it is `Dedup(s)`. */
  lemma DedupCharacterised(s: seq<string>, r: seq<string>)
    ensures r == Dedup(s) <==> (NoDup(r) && (forall x :: x in r <==> x in s) && FirstOccurrenceOrder(r, s))
  {
    DedupOrder(s);
    if NoDup(r) && (forall x :: x in r <==> x in s) && FirstOccurrenceOrder(r, s) {
      OrderDetermines(r, Dedup(s), s);
    }
  }

  /** A sequence without duplicates passes the filter unchanged. */
  lemma {:induction false} DedupOfNoDup(s: seq<string>)
    requires NoDup(s)
    ensures Dedup(s) == s
    decreases |s|
  {
    if s != [] {
      var p := s[..|s| - 1];
      assert NoDup(p);
      DedupOfNoDup(p);
      assert s[|s| - 1] !in p by {
        forall i | 0 <= i < |p| ensures p[i] != s[|s| - 1] {
          assert p[i] == s[i];
        }
      }
      assert s == p + [s[|s| - 1]];
    }
  }

  /** Filtering twice is filtering once. */
  lemma DedupIdempotent(s: seq<string>)
    ensures Dedup(Dedup(s)) == Dedup(s)
  {
    DedupOfNoDup(Dedup(s));
  }

  /** What the filter keeps from a prefix of its input is a prefix of what it
      keeps from the whole input. */
  lemma {:induction false} DedupPrefix(s: seq<string>, t: nat)
    requires t <= |s|
    ensures |Dedup(s[..t])| <= |Dedup(s)| && Dedup(s[..t]) == Dedup(s)[..|Dedup(s[..t])|]
    decreases |s| - t
  {
    if t < |s| {
      DedupPrefix(s, t + 1);
      assert s[..t + 1][..t] == s[..t];
    } else {
      assert s[..t] == s;
    }
  }

  // ---------------------------------------------------------------------------
  // Occurrence counts (`ourUniq2`)
  // ---------------------------------------------------------------------------

  /** A kept line with the number of times it occurs in the input. */
  datatype Entry = Entry(count: nat, line: string)

  /** The sum of the counts `m` gives to the elements of `d`. */
  function CountSum(d: seq<string>, m: multiset<string>): nat
    decreases |d|
  {
    if d == [] then 0 else CountSum(d[..|d| - 1], m) + m[d[|d| - 1]]
  }

  /** Adding one occurrence of `y` adds one to the count sum when `y` is listed
      once in `d`, and nothing when it is not listed. */
  lemma {:induction false} CountSumAdd(d: seq<string>, m: multiset<string>, y: string)
    requires NoDup(d)
    ensures CountSum(d, m + multiset{y}) == CountSum(d, m) + (if y in d then 1 else 0)
    decreases |d|
  {
    if d != [] {
      var p := d[..|d| - 1];
      assert NoDup(p);
      CountSumAdd(p, m, y);
      assert y in d <==> y in p || y == d[|d| - 1] by {
        assert d == p + [d[|d| - 1]];
      }
      assert d[|d| - 1] !in p by {
        forall i | 0 <= i < |p| ensures p[i] != d[|d| - 1] {
          assert p[i] == d[i];
        }
      }
    }
  }

  /** The entries the counting filter prints for the lines `s`. */
  function Tally(s: seq<string>): (r: seq<Entry>)
    ensures |r| == |Dedup(s)|
    ensures forall i :: 0 <= i < |r| ==> r[i].line == Dedup(s)[i] && r[i].count == multiset(s)[r[i].line]
  {
    var d := Dedup(s);
    seq(|d|, i requires 0 <= i < |d| => Entry(multiset(s)[d[i]], d[i]))
  }

  /** The counts printed by `ourUniq2` add up to the number of input lines. */
  lemma {:induction false} TallySum(s: seq<string>)
    ensures CountSum(Dedup(s), multiset(s)) == |s|
    decreases |s|
  {
    if s != [] {
      var p := s[..|s| - 1];
      var y := s[|s| - 1];
      assert s == p + [y];
      assert multiset(s) == multiset(p) + multiset{y};
      TallySum(p);
      var d := Dedup(p);
      CountSumAdd(d, multiset(p), y);
      if y !in d {
        assert y !in p;
        assert Dedup(s) == d + [y];
        assert (d + [y])[..|d|] == d;
      }
    }
  }

  /** Every printed count is at least one. */
  lemma TallyPositive(s: seq<string>)
    ensures forall i :: 0 <= i < |Tally(s)| ==> Tally(s)[i].count >= 1
  {
    forall i | 0 <= i < |Tally(s)| ensures Tally(s)[i].count >= 1 {
      assert Dedup(s)[i] in Dedup(s);
    }
  }

  // ---------------------------------------------------------------------------
  // Printed text
  // ---------------------------------------------------------------------------

  /** One `printf("%s\n", ...)` per kept line. */
  function Render(ls: seq<string>): string
    decreases |ls|
  {
    if ls == [] then [] else Render(ls[..|ls| - 1]) + ls[|ls| - 1] + "\n"
  }

  /** The printed text of a non-empty list is the lines joined by line breaks
      with one more line break at the end. */
  lemma {:induction false} RenderJoin(ls: seq<string>)
    requires ls != []
    ensures Render(ls) == Join(ls, '\n') + "\n"
    decreases |ls|
  {
    if |ls| > 1 {
      var p := ls[..|ls| - 1];
      RenderJoin(p);
      JoinSnoc(p, ls[|ls| - 1], '\n');
      assert ls == p + [ls[|ls| - 1]];
    }
  }

  /** Joining one more token adds a separator and the token. */
  lemma {:induction false} JoinSnoc(toks: seq<string>, t: string, sep: char)
    requires toks != []
    ensures Join(toks + [t], sep) == Join(toks, sep) + [sep] + t
    decreases |toks|
  {
    if |toks| == 1 {
      assert (toks + [t])[1..] == [t];
    } else {
      assert (toks + [t])[1..] == toks[1..] + [t];
      JoinSnoc(toks[1..], t, sep);
    }
  }

  /** A final line break adds no line. */
  lemma TrailingBreak(j: string)
    ensures Lines(j + "\n") == Lines(j)
  {
    assert AllDelims("\n", LineBreak);
    SplitIgnoresOuterDelims("", j, "\n", LineBreak);
    assert "" + j + "\n" == j + "\n";
  }

  /** Reading printed lines back yields them again. */
  lemma LinesOfRender(ls: seq<string>)
    requires forall i :: 0 <= i < |ls| ==> ls[i] != [] && DelimFree(ls[i], LineBreak)
    ensures Lines(Render(ls)) == ls
  {
    if ls != [] {
      RenderJoin(ls);
      TrailingBreak(Join(ls, '\n'));
      SplitJoin(ls, '\n', LineBreak);
    }
  }

  /** What the plain filter prints for `input`. */
  function UniqText(input: string): string {
    Render(Dedup(Lines(input)))
  }

  /** The plain filter is idempotent: filtering its own output prints the same text. */
  lemma UniqTextIdempotent(input: string)
    ensures UniqText(UniqText(input)) == UniqText(input)
  {
    KeptAreLines(input);
    LinesOfRender(Dedup(Lines(input)));
    DedupIdempotent(Lines(input));
  }

  /** The decimal digit of `d`. */
  function Digit(d: nat): char
    requires d < 10
  {
    "0123456789"[d]
  }

  predicate IsDigits(s: string) {
    forall i :: 0 <= i < |s| ==> '0' <= s[i] <= '9'
  }

  /** `%d` of a non-negative count: the digits of `n`, most significant first. */
  function Decimal(n: nat): (r: string)
    ensures r != [] && IsDigits(r)
    ensures |r| > 1 ==> r[0] != '0'
  {
    if n < 10 then [Digit(n)] else Decimal(n / 10) + [Digit(n % 10)]
  }

  /** The number a string of decimal digits denotes. */
  function DecimalValue(s: string): nat
    requires IsDigits(s)
    decreases |s|
  {
    if s == [] then 0 else DecimalValue(s[..|s| - 1]) * 10 + (s[|s| - 1] as int - '0' as int)
  }

  /** Reading a printed count back gives the count. */
  lemma {:induction false} DecimalRoundTrip(n: nat)
    ensures DecimalValue(Decimal(n)) == n
  {
    if n >= 10 {
      DecimalRoundTrip(n / 10);
      var r := Decimal(n);
      assert r[..|r| - 1] == Decimal(n / 10);
    }
  }

  /** A printed entry line: the count, one blank, the line. */
  function EntryLine(e: Entry): string {
    Decimal(e.count) + " " + e.line
  }

  /** The entry lines of `es`, in order. */
  function EntryLines(es: seq<Entry>): (r: seq<string>)
    ensures |r| == |es| && forall i :: 0 <= i < |es| ==> r[i] == EntryLine(es[i])
    decreases |es|
  {
    if es == [] then [] else EntryLines(es[..|es| - 1]) + [EntryLine(es[|es| - 1])]
  }

  /** One `printf("%d %s\n", ...)` per entry. */
  function RenderCounts(es: seq<Entry>): string {
    Render(EntryLines(es))
  }

  /** An entry line splits back at its first blank into the count and the line. */
  lemma EntryLineSplits(e: Entry)
    ensures var l := EntryLine(e); var k := |Decimal(e.count)|;
            k < |l| && l[k] == ' ' && ' ' !in l[..k] && DecimalValue(l[..k]) == e.count && l[k + 1..] == e.line
  {
    var l := EntryLine(e);
    var k := |Decimal(e.count)|;
    assert l[..k] == Decimal(e.count);
    assert l[k + 1..] == e.line;
    DecimalRoundTrip(e.count);
  }

  /** What the counting filter prints for `input`. */
  function CountedText(input: string): string {
    RenderCounts(Tally(Lines(input)))
  }

  // ---------------------------------------------------------------------------
  // The filters as the source runs them
  // ---------------------------------------------------------------------------

  /** What the filters demand of their input: at least one line (the first
      token is copied before the loop, and a missing one is a NULL), at most
      `MaxDistinct` distinct lines and every line short enough for a row of
      the `visited` table. */
  predicate UniqInput(input: string) {
    && Lines(input) != []
    && |Dedup(Lines(input))| <= MaxDistinct
    && forall i :: 0 <= i < |Lines(input)| ==> |Lines(input)[i]| < LineBufSize
  }

  /** Whether `token` equals one of the rows of `visited`: the inner `k` loop of `ourUniq`. */
  method Seen(visited: seq<string>, token: string) returns (found: bool)
    ensures found <==> token in visited
  {
    found := false;
    var k := 0;
    while k < |visited|
      invariant 0 <= k <= |visited|
      invariant found <==> token in visited[..k]
    {
      assert visited[..k + 1] == visited[..k] + [visited[k]];
      if visited[k] == token {
        found := true;
      }
      k := k + 1;
    }
    assert visited[..k] == visited;
  }

  /** The final `m` loop of `ourUniq`: one line per row. */
  method PrintRows(rows: seq<string>) returns (output: string)
    ensures output == Render(rows)
  {
    output := [];
    var m := 0;
    while m < |rows|
      invariant 0 <= m <= |rows|
      invariant output == Render(rows[..m])
    {
      assert rows[..m + 1][..m] == rows[..m];
      output := output + rows[m] + "\n";
      m := m + 1;
    }
    assert rows[..m] == rows;
  }

  /** The lines the filter keeps are lines of its input. */
  lemma KeptAreLines(input: string)
    ensures forall k :: 0 <= k < |Dedup(Lines(input))| ==>
              Dedup(Lines(input))[k] != [] && DelimFree(Dedup(Lines(input))[k], LineBreak)
  {
    var lines := Lines(input);
    forall k | 0 <= k < |Dedup(lines)| ensures Dedup(lines)[k] != [] && DelimFree(Dedup(lines)[k], LineBreak) {
      assert Dedup(lines)[k] in Dedup(lines);
      var j :| 0 <= j < |lines| && lines[j] == Dedup(lines)[k];
    }
  }

  /** `ourUniq`: the `visited` table filled line by line, then printed. */
  method OurUniq(input: string) returns (output: string)
    requires UniqInput(input)
    ensures output == UniqText(input)
    ensures Lines(output) == Dedup(Lines(input))
  {
    var lines := Lines(input);
    var first := lines[0];  // the `strcpy` of the first line into the table; `UniqInput` makes it defined
    var visited: seq<string> := [];
    var t := 0;
    while t < |lines|
      invariant 0 <= t <= |lines|
      invariant visited == Dedup(lines[..t])
    {
      var token := lines[t];
      assert lines[..t + 1] == lines[..t] + [token];
      var j := Seen(visited, token);
      if !j {
        DedupPrefix(lines, t + 1);
        assert |visited| < MaxDistinct && |token| < LineBufSize;
        visited := visited + [token];
      }
      t := t + 1;
    }
    assert lines[..t] == lines;
    output := PrintRows(visited);
    KeptAreLines(input);
    LinesOfRender(visited);
  }

  /** One pass of the inner `k` loop of `ourUniq2`: every row equal to
      `token` has its count raised by one. */
  method CountRow(visited: seq<string>, visitedCount: seq<nat>, token: string) returns (j: bool, counts: seq<nat>)
    requires |visited| == |visitedCount|
    ensures j <==> token in visited
    ensures |counts| == |visitedCount|
    ensures forall q :: 0 <= q < |counts| ==> counts[q] == visitedCount[q] + (if visited[q] == token then 1 else 0)
  {
    j := false;
    counts := visitedCount;
    var k := 0;
    while k < |visited|
      invariant 0 <= k <= |visited| && |counts| == |visitedCount|
      invariant j <==> token in visited[..k]
      invariant forall q :: 0 <= q < k ==> counts[q] == visitedCount[q] + (if visited[q] == token then 1 else 0)
      invariant forall q :: k <= q < |counts| ==> counts[q] == visitedCount[q]
    {
      assert visited[..k + 1] == visited[..k] + [visited[k]];
      if visited[k] == token {
        j := true;
        counts := counts[k := counts[k] + 1];
      }
      k := k + 1;
    }
    assert visited[..k] == visited;
  }

  /** The entries of a table whose rows are `rows` with counts `counts`. */
  function Entries(counts: seq<nat>, rows: seq<string>): (es: seq<Entry>)
    requires |counts| == |rows|
    ensures |es| == |rows| && forall i :: 0 <= i < |rows| ==> es[i] == Entry(counts[i], rows[i])
  {
    seq(|rows|, i requires 0 <= i < |rows| => Entry(counts[i], rows[i]))
  }

  /** Printing one more entry appends its line and a line break. */
  lemma RenderCountsSnoc(es: seq<Entry>, m: nat)
    requires m < |es|
    ensures RenderCounts(es[..m + 1]) == RenderCounts(es[..m]) + EntryLine(es[m]) + "\n"
  {
    var ls := EntryLines(es[..m + 1]);
    assert es[..m + 1][..m] == es[..m];
    assert ls[..|ls| - 1] == EntryLines(es[..m]);
  }

  /** The final `m` loop of `ourUniq2`: one `<count> <line>` line per row. */
  method PrintCounts(counts: seq<nat>, rows: seq<string>) returns (output: string)
    requires |counts| == |rows|
    ensures output == RenderCounts(Entries(counts, rows))
  {
    var es := Entries(counts, rows);
    output := [];
    var m := 0;
    while m < |rows|
      invariant 0 <= m <= |rows|
      invariant output == RenderCounts(es[..m])
    {
      RenderCountsSnoc(es, m);
      var line := Decimal(counts[m]) + " " + rows[m];
      assert line == EntryLine(es[m]);
      output := output + line + "\n";
      m := m + 1;
    }
    assert es[..m] == es;
  }

  /** The `visited` rows of `ourUniq2` with their counts, after the lines `p`:
      the distinct lines in first-occurrence order, each with its number of
      occurrences. */
  predicate TableOf(p: seq<string>, visited: seq<string>, counts: seq<nat>)
  {
    && visited == Dedup(p)
    && |counts| == |visited|
    && forall k :: 0 <= k < |visited| ==> counts[k] == multiset(p)[visited[k]]
  }

  /** One more line: the counting pass raises the row equal to it, and a line
      seen for the first time gets a new row with count one. */
  lemma TableStep(p: seq<string>, x: string, visited: seq<string>, before: seq<nat>, after: seq<nat>)
    requires TableOf(p, visited, before) && |after| == |before|
    requires forall q :: 0 <= q < |after| ==> after[q] == before[q] + (if visited[q] == x then 1 else 0)
    ensures x in visited ==> TableOf(p + [x], visited, after)
    ensures x !in visited ==> TableOf(p + [x], visited + [x], after + [1])
  {
    var s := p + [x];
    assert s[..|s| - 1] == p;
    assert multiset(s) == multiset(p) + multiset{x};
    if x !in visited {
      assert x !in p;
      assert multiset(p)[x] == 0;
      var v := visited + [x];
      var c := after + [1];
      forall k | 0 <= k < |v| ensures c[k] == multiset(s)[v[k]] {
        if k < |visited| {
          assert v[k] == visited[k] && visited[k] != x;
        }
      }
    }
  }

  /** A finished table is what the counting filter prints. */
  lemma TableTally(s: seq<string>, visited: seq<string>, counts: seq<nat>)
    requires TableOf(s, visited, counts)
    ensures Entries(counts, visited) == Tally(s)
  {
  }

  /** `ourUniq2`: the `visited` table with a count per row, then printed with the counts. */
  method OurUniq2(input: string) returns (output: string)
    requires UniqInput(input)
    ensures output == CountedText(input)
  {
    var lines := Lines(input);
    var first := lines[0];  // the `strcpy` of the first line into the table; `UniqInput` makes it defined
    var visited: seq<string> := [];
    var visitedCount: seq<nat> := [];
    var t := 0;
    while t < |lines|
      invariant 0 <= t <= |lines|
      invariant TableOf(lines[..t], visited, visitedCount)
    {
      var token := lines[t];
      assert lines[..t + 1] == lines[..t] + [token];
      var j, counts := CountRow(visited, visitedCount, token);
      TableStep(lines[..t], token, visited, visitedCount, counts);
      visitedCount := counts;
      if !j {
        DedupPrefix(lines, t + 1);
        assert |visited| < MaxDistinct && |token| < LineBufSize;
        visited := visited + [token];
        visitedCount := visitedCount + [1];
      }
      t := t + 1;
    }
    assert lines[..t] == lines;
    output := PrintCounts(visitedCount, visited);
    TableTally(lines, visited, visitedCount);
  }

  // ---------------------------------------------------------------------------
  // Filter selection in `pipeCommand`
  // ---------------------------------------------------------------------------

  datatype Variant = Plain | Counted

  /** The filter a stage runs in-process: none unless it is named `uniq`, the
      counting one when it has arguments. */
  function FilterOf(c: Command): (v: Option<Variant>)
    ensures v.Some? <==> c.name == "uniq"
    ensures v == Some(Counted) <==> c.name == "uniq" && c.argCount > 0
    ensures v == Some(Plain) <==> c.name == "uniq" && c.argCount == 0
  {
    if c.name != "uniq" then None
    else if c.argCount > 0 then Some(Counted)
    else Some(Plain)
  }

  /** What the chosen filter prints for the text read from the pipe. */
  function FilterOutput(v: Variant, input: string): string {
    match v
    case Plain => UniqText(input)
    case Counted => CountedText(input)
  }

  /** Both filters print the same lines in the same order; the counting one
      puts the occurrence count and a blank in front of each. */
  lemma FiltersAgree(input: string)
    ensures var plain := Lines(FilterOutput(Plain, input));
            var counted := Lines(FilterOutput(Counted, input));
            |plain| == |counted|
            && forall i :: 0 <= i < |plain| ==>
                 counted[i] == Decimal(multiset(Lines(input))[plain[i]]) + " " + plain[i]
  {
    var ls := Lines(input);
    var d := Dedup(ls);
    var es := Tally(ls);
    var cl := EntryLines(es);
    KeptAreLines(input);
    LinesOfRender(d);
    forall k | 0 <= k < |cl| ensures cl[k] != [] && DelimFree(cl[k], LineBreak) {
      assert DelimFree(Decimal(es[k].count), LineBreak);
      assert cl[k] == Decimal(es[k].count) + " " + d[k];
    }
    LinesOfRender(cl);
  }

  /** The lines `a`, `a`, `b` keep two lines, in order. */
  lemma ExampleDedup()
    ensures Dedup(["a", "a", "b"]) == ["a", "b"]
  {
    var s := ["a", "a", "b"];
    assert NoDup(["a", "b"]);
    assert FirstIndex(s, "a") == 0;
    assert FirstIndex(s, "b") == 2 by {
      assert s[1..][1..] == ["b"];
    }
    DedupCharacterised(s, ["a", "b"]);
  }

  /** Occurrence counts are counted per input line: the lines `a`, `a`, `b`
      are counted two and one. */
  lemma ExampleCounts()
    ensures Tally(["a", "a", "b"]) == [Entry(2, "a"), Entry(1, "b")]
  {
    var s := ["a", "a", "b"];
    ExampleDedup();
    assert multiset(s) == multiset{"a", "a", "b"};
  }
}

=== FILE: wrappers.dfy ===
/** The optional value used wherever the shell stores something that may be NULL. */
module Wrappers {

  datatype Option<+T> = None | Some(value: T)
}
